=== FILE: README.md ===
# Halting solver core in Dafny

This project models the core of a small busy-beaver "halting solver" written in
Python. That core has four parts:

- a two-sided tape;
- a deterministic Turing machine that validates its configuration when it is
  built and then steps;
- the codec that turns a machine number into a transition encoding
  (`enumerate_transition_encodings`, `max_machines`);
- the decoder that turns such an encoding back into a transition table
  (`encoding_to_transitions`).

Everything is modelled as immutable datatypes and pure functions. Python
exceptions become `Result` errors.

Modules, one per concern:

- `Wrappers`: `Result`.
- `Seqs`: duplicate-free lists, their cardinality, and index lookup.
- `Tapes`: the `Tape` class.
  - `NewTape` is the constructor, `Read` is `__getitem__` and `Write` is
    `__setitem__`.
  - `View` gives the conceptual tape as a finite map from written cells to
    symbols.
- `TuringMachines`: `TuringMachine`.
  - `Construct` runs the six checks of the constructor in their source order,
    and `Step` models `step`.
  - `Run` repeats `Step`.
  - `Sound` is an invariant under which stepping never faults.
- `Encoding`: `enumerate_transition_encodings` and `max_machines`.
  - An encoding is a header `(S - H, K)` followed by slots
    `(symbol, shift, state)`.
  - The slots are the mixed-radix digits of the machine number, least
    significant first, with radices K, 2 and S.
  - `Recombine` reads the digits back.
- `Decoding`: `encoding_to_transitions` on the parsed encoding.
  - It checks the header.
  - Then it consumes one slot per non-halting (state, symbol) pair, with
    symbols in the outer loop and states in the inner loop.
  - It reports the missing slot (IndexError), the bad shift digit (ValueError)
    or the bad state index (IndexError).
- `RoundTrip`: encoding and decoding together, and what the decoded machines
  do.
- `Scenarios`: the default machine, the one-state busy beaver from the driver,
  and a few refused configurations.

Within the types modelled (see "## Left out" for what they narrow), behaviour
is kept exactly as the code has it. Some of it is surprising:

- The machine's tape is built as `Tape(input_symbols)`, so its blank is always
  0, never the configured `blank_symbol`.
- A new tape has `max_index = 0` whatever the input length. Only cell 0 of the
  input is visible. A write to cell 1 appends past the input, so cell 1 then
  reads the input's second value.
- `__setitem__` past a bound appends, whatever the distance to the bound. On a
  tape over a one-cell input, a write two cells past the bound succeeds, but
  reading that cell back raises IndexError. On a tape over a longer input the
  appended value lands behind the hidden input cells, and the cell reads an
  input value or the appended one, depending on the input's length.
- A tape built from any non-empty input nevertheless never raises under a head that
  moves one cell per step: each half stays at least as long as its bound
  needs.
- The transition-count check uses `len(states) - 1`, whatever the number of
  final states. A configuration with two or more distinct final states, all
  among the states, and exactly one transition per non-final pair is therefore
  refused. So is every table decoded with two or more distinct halting states
  that are all among the states.
- States, symbols and final states are lists (`seq`). `len` counts duplicates.
  With duplicate states, decoding lets a later slot overwrite an earlier one.

## Model

| member | source | states |
|---|---|---|
| Tapes.NewTape | main.py:13-20 | A fresh tape is well formed exactly when the input has one cell, and covers its bounds exactly when the input is not empty. Cell 0 reads the first input value, or IndexError for an empty input. Every other cell reads as blank. |
| Tapes.Read | main.py:27-33 | Cells outside the bounds read as blank. A well-formed tape, and more generally a tape that covers its bounds, never raises. Any value read is the blank or a stored value. |
| Tapes.Write | main.py:35-47 | A write keeps the blank and only widens the bounds. A write at most one cell past a bound of a well-formed tape succeeds, keeps the tape well formed and brings the cell inside the bounds. The same holds with covering in place of well formed. On a tape whose bounds lie on either side of cell 0, a write raises IndexError exactly when reading the same cell does. |
| Tapes.EmptyInputWriteFails | main.py:13-47 | On a tape over an empty input, both writing and reading cell 0 raise IndexError. |
| Tapes.WriteStoresOnly | main.py:35-47 | After a write, every stored value of either half is the written value or one the half held before. |
| Tapes.View | main.py:27-33 | Reading any cell of a well-formed tape gives the finite map's entry, or the blank when the cell is not in the map. |
| Tapes.WriteThenRead | main.py:35-47 | An adjacent write updates exactly the written cell of the conceptual tape. The cell reads back the written value and every other cell reads as before. |
| Tapes.LongInputWriteLandsElsewhere | main.py:13-39 | With two or more input cells, cell 1 reads as blank. After a write to cell 1, it reads the input's second value, not the written one. |
| Tapes.FarWriteIsUnreadable | main.py:27-39 | A write two cells past the upper bound succeeds, and reading that cell then raises IndexError. |
| TuringMachines.ValidIffNoViolation | main.py:89-106 | A configuration is valid exactly when it fails none of the six checks. |
| TuringMachines.Construct | main.py:80-106 | Construction succeeds if and only if the configuration is valid. Otherwise it reports a failed check, and no earlier check fails. On success the machine starts in the initial state at position 0, on a tape over the input with blank 0. |
| TuringMachines.ConstructReportsFirstViolation | main.py:89-106 | The error raised is the first failing check in source order. |
| TuringMachines.CountMismatchRefused | main.py:100-101 | A configuration that passes the first four checks but has the wrong number of transitions is refused with the count error. |
| TuringMachines.MissingTransitionRefused | main.py:102-106 | A configuration that passes the first five checks but lacks the transition for some non-final state and symbol is refused with the completeness error. |
| TuringMachines.Step | main.py:108-119 | A final state is left unchanged, and the step reports false. A successful step reports true exactly when the state was not final. A step never changes the configuration, and a running step moves the head by one. A step fails with the missing-transition error (KeyError) exactly when the state is not final, the head cell reads, and the (state, symbol) pair has no transition. A tape error (IndexError) happens only on a tape that is not well formed or with the head more than one cell past a bound. On a tape whose bounds lie on either side of cell 0, it happens exactly when the state is not final and the head cell does not read, so never on a tape that covers its bounds. |
| TuringMachines.StepRunning | main.py:108-117 | On a well-formed tape with the head adjacent, the machine takes the transition for the symbol under the head. The state becomes the transition's next state. The old head cell holds the written symbol and other cells are unchanged. The head moves in the transition's direction. |
| TuringMachines.StepOnCoveringTape | main.py:108-117 | On a tape that covers its bounds with the head adjacent, a running step takes the transition for the symbol under the head: it enters the next state and moves in the transition's direction, and the tape still covers its bounds with the new head adjacent. |
| TuringMachines.StepPreservesSound | main.py:108-119 | A sound machine steps without a tape error or a missing transition, and stays sound. |
| TuringMachines.RunPreservesSound | main.py:108-119 | A sound machine runs any number of steps without fault and stays sound. |
| TuringMachines.RunAvoidsFinals | main.py:108-119 | A sound machine whose transitions never enter a final state is still running after any number of steps, and its next step reports true. |
| TuringMachines.HaltedIsFixedPoint | main.py:118-119 | A machine in a final state stays unchanged for any number of steps. |
| TuringMachines.ConstructedIsSound | main.py:80-106 | A valid configuration is sound when it has a non-empty input, 0 among the symbols and transitions inside the states and symbols. |
| TuringMachines.ConstructedNeverHalts | main.py:108-117 | If, in addition, the initial state is not final and no transition enters a final state, every step of every run reports true. |
| Encoding.Digits | main.py:148-155 | The digit loop yields `count` slots, each digit below its radix. |
| Encoding.Encode | main.py:145-156 | The header is (S - H, K). There are (S - H) * K slots when H < S and none otherwise, and every digit is below its radix. |
| Encoding.EncodeSlotCount | main.py:147-148 | With H <= S there are exactly (S - H) * K slots. |
| Encoding.MaxMachines | main.py:159-160 | With H <= S, or with no symbols, the number of machines is positive, so the index space is never empty. With no symbols there is exactly one machine number. |
| Encoding.RecombineDigits | main.py:148-155 | Reading the slots back as a mixed-radix number gives the machine number modulo (2SK)^count. |
| Encoding.RecombineInRange | main.py:159-160 | A slot sequence inside the radices reads back to a number below (2SK)^length. |
| Encoding.DigitsOfRecombine | main.py:148-155 | A slot sequence inside the radices is exactly the digits of its own value. |
| Encoding.DigitsDependOnResidue | main.py:148-155 | The digits depend only on the number modulo (2SK)^count. |
| Encoding.DigitsInjective | main.py:148-155 | Distinct numbers below (2SK)^count have distinct digits. |
| Encoding.EncodeIndexSpace | main.py:145-160 | An encoding depends only on the machine number modulo max_machines, and reading its slots back gives that residue. |
| Encoding.EncodeInjective | main.py:145-160 | Distinct machine numbers below max_machines have distinct encodings. |
| Encoding.EncodeSurjective | main.py:145-160 | Every slot sequence of the right length inside the radices is the encoding of a machine number below max_machines. |
| Decoding.NonHaltingMembers | main.py:135-136 | The filtered states are exactly the states that are not halting. |
| Decoding.NonHaltingSingle | main.py:135-136 | A single state is kept exactly when it is not halting. |
| Decoding.NonHaltingAppend | main.py:135-136 | Filtering keeps list order: the filter of a concatenation is the concatenation of the filtered parts. With the one-state case this fixes which state each slot goes to. |
| Decoding.Pairs | main.py:134-136 | There are as many pairs as non-halting states times symbols. |
| Decoding.PairsMembers | main.py:134-136 | The pairs are exactly the (non-halting state, symbol) pairs. |
| Decoding.ToAction | main.py:137-140 | A slot decodes if and only if its shift digit is 0 or 1 and its state index is in range. A bad shift is reported before a bad state index, which is reported as BadStateIndex. The written symbol is the digit, the shift digit round-trips, and the next state is looked up by index. |
| Decoding.DecodeSlots | main.py:133-141 | Filling the table succeeds if and only if there are enough slots and each consumed slot is well formed. |
| Decoding.DecodeSlotsFirstError | main.py:133-141 | When the slots before k are present and well formed and slot k is missing or bad, filling the table fails with MissingSlot or with slot k's own error. |
| Decoding.DecodeFirstError | main.py:122-142 | With a matching header, a refused encoding reports the error of its first missing or bad slot. |
| Decoding.DecodeSlotsKeys | main.py:133-141 | The filled table's keys are exactly the pairs. |
| Decoding.DecodeSlotsEntries | main.py:133-141 | A pair holds the transition of the slot at its last occurrence. |
| Decoding.DecodeSlotsSize | main.py:133-141 | Duplicate-free pairs give one table entry per pair. |
| Decoding.Decode | main.py:122-142 | A header with the wrong state count or symbol count is refused. Otherwise decoding succeeds if and only if enough slots follow and each consumed one is well formed. |
| Decoding.DecodedKeys | main.py:133-141 | A decoded table has a transition for exactly the pairs of a non-halting state and a symbol. |
| Decoding.DecodedSize | main.py:133-141 | Over duplicate-free lists, a decoded table has (S - H) * K entries. |
| Decoding.PairsAtRow | main.py:133-141 | Entry j of symbol row i is the j-th non-halting state paired with the i-th symbol. |
| Decoding.PairsAt | main.py:133-141 | Pair number n * i + j, for n non-halting states, is the j-th non-halting state paired with the i-th symbol. |
| Decoding.DecodeSlotOrder | main.py:133-141 | Over duplicate-free lists, slot k becomes the transition of pair k. |
| Decoding.NonHaltingCount | main.py:128-129 | With duplicate-free lists and halting states among the states, there are S - H non-halting states. |
| Decoding.PairCount | main.py:128-148 | Under the same conditions, there are as many pairs as the encoder writes slots. |
| Decoding.DecodeSlotsIgnoresExtra | main.py:133-141 | Slots past the consumed ones are never read. |
| Decoding.DecodeIgnoresExtraSlots | main.py:133-141 | Appending slots to a decodable encoding does not change the decoded table. |
| RoundTrip.SlotOf | main.py:137-140 | Re-encoding a transition gives a well-formed slot that decodes back to it. |
| RoundTrip.SlotOfToAction | main.py:137-140 | Over duplicate-free states, decoding a well-formed slot and re-encoding it gives the slot back. |
| RoundTrip.EncodingDecodes | main.py:122-156 | The encoding of any machine number decodes. |
| RoundTrip.DecodedTableReencodes | main.py:122-156 | Re-encoding the decoded table pair by pair gives back the slots. |
| RoundTrip.DecodedEntryReencodes | main.py:137-140 | The transition decoded for pair k re-encodes to slot k. |
| RoundTrip.DecodeEncode | main.py:122-160 | Decoding the encoding of n and reading the re-encoded table as a number gives n modulo max_machines. |
| RoundTrip.EncodedMachineIsValid | main.py:100-106 | With one halting state, the table decoded from any machine number passes every construction check. |
| RoundTrip.EncodedMachineNeedsOneHaltingState | main.py:100-101 | With two or more halting states, the table decoded from any machine number is refused by the count check. |
| RoundTrip.EncodedEntryIsClosed | main.py:137-140 | The transition decoded from slot k writes a symbol below K and moves to a listed state. |
| RoundTrip.EncodedTableIsClosed | main.py:137-140 | Every decoded transition stays inside the symbols 0..K-1 and the states. |
| RoundTrip.EncodedMachineNeverFaults | main.py:108-117 | A decoded machine over 0..K-1 with a non-empty input of symbols runs any number of steps without fault. |
| Scenarios.DefaultConfigIsValid | main.py:59-79 | The default configuration passes every check. |
| Scenarios.DefaultWithoutC1IsRefused | main.py:100-101 | Without the (C, 1) transition, the default configuration fails the count check. |
| Scenarios.MissingPairIsRefused | main.py:102-106 | Replacing (C, 1) by a transition keyed on the final state keeps the count right, but fails the completeness check. |
| Scenarios.TwoFinalStatesAreRefused | main.py:100-101 | Two final states with a complete table are refused by the count check. |
| Scenarios.BusyBeaverOneDecodes | main.py:196 | "1-2/1-1-0/0-0-0" decodes to A, 0 -> (1, R, HALT) and A, 1 -> (0, L, HALT). |
| Scenarios.BusyBeaverOneIsValid | main.py:249 | The one-state busy beaver on input [0] passes every check. |
| Scenarios.BusyBeaverOneFirstStep | main.py:108-117 | Its first step writes 1 in cell 0, moves right, enters HALT and reports true. |
| Scenarios.BusyBeaverOneHaltsAfterOneStep | main.py:249-257 | The built machine's first step reports true and reaches the halted machine. The next step reports false and changes nothing. |
| Scenarios.BusyBeaverOneHaltedStep | main.py:118-119 | A step of the halted one-state busy beaver reports false and leaves the machine unchanged. |
| Scenarios.BusyBeaverOneStaysHalted | main.py:118-119 | After halting, any number of further steps changes nothing. |
| Scenarios.MaxMachinesTwoSymbols | main.py:159-160 | With two symbols and one halting state, max_machines is (4S)^(2(S-1)): 64 machines for S = 2 and 20736 for S = 3. |
| Scenarios.LoopingConfigIsValid | main.py:89-106 | A table whose transitions all return to A passes every check and builds the expected machine. |
| Scenarios.LoopingMachineNeverHalts | main.py:108-117 | Every step of every run of that machine reports true. |

## Left out

- The interactive driver under `if __name__ == "__main__"` (main.py:163-270)
  is I/O. This covers its prompts, the state-name generation, random machine
  numbers (`randint`) and the step-counting loops. Its fixed inputs (the
  one-state busy-beaver string, `symbols = [0, 1]`, `input_symbols=[0]`)
  appear in the scenarios and round-trip lemmas. The two-state busy-beaver
  string and the random machine numbers are not modelled as scenarios; the
  round-trip lemmas cover every machine number.
- `Tape.__repr__` (main.py:22-25) only formats for printing. It also reverses
  `negative` in place as a side effect. Neither is modelled.
- Text parsing of encodings: `split('/')`, `split('-')`, `int(...)` and the
  `"{}-{}"` formatting. An encoding is modelled as its parsed form `Code`,
  with natural-number digits. Malformed text is outside the model: empty or
  non-numeric fields and fewer than three fields in a slot. A field cannot
  carry a minus sign, because `-` separates the fields.
- `None` defaults of the constructors. The default transition table and
  configuration appear as `Scenarios.DefaultConfig`. The default `[1]` tape
  input is covered by `NewTape` for any input.
- Python sets as `states`/`symbols` (the default configuration uses sets).
  Lists are modelled, so `len` counts duplicates. For duplicate-free lists the
  two agree.
- The partly updated machine of a failing step: the model returns only the
  error. On every tape the program builds, only the read of the head cell can
  raise (the `TuringMachines.Step` contract states this), and it raises before
  `step` changes anything.
- Encoding.Encode: takes S, H and K as natural numbers. Python also accepts
  negative counts: the slot count (S - H) * K can then still be positive, and
  `%` by a negative radix yields non-positive digits. Negative counts are not
  modelled, in `MaxMachines` either.
- Encoding.MaxMachines: requires H <= S unless K = 0. With K = 0 the exponent
  is 0 and the result is 1 whatever H. With K > 0 and H > S the exponent is
  negative. Python then returns a float when S > 0 and raises
  ZeroDivisionError when S = 0. Neither case is modelled.
- Transition values other than a (symbol, `Shift`, state) triple. `Shift` is
  L or R and `Action` is a record, as in every table the program builds
  itself (the default table and decoded ones). A hand-built table may hold a
  shift that is neither `Shift.R` nor `Shift.L`: both `is` tests then fail,
  the head stays put and `step` still returns True. A value that is not a
  3-tuple makes the unpacking in `step` raise ValueError. Neither case is
  modelled.
- Error message texts of the exceptions. Only which error is raised is
  modelled.
- Aliasing: `Tape(input_symbols)` shares and mutates the caller's list.
  Values are immutable here.

=== FILE: decoding.dfy ===
/** Decoding an encoding back into a transition table for given lists of
    states, halting states and symbols. Slot k goes to the k-th non-halting
    (state, symbol) pair, with symbols in the outer loop and states in the
    inner loop. */
module Decoding {
  import opened Wrappers
  import opened Seqs
  import opened TuringMachines
  import opened Encoding

  /** Why an encoding is refused: a header that disagrees with the lists, too
      few slots (IndexError), a shift digit other than 0 or 1 (ValueError), or
      a state index past the end of the states (IndexError). */
  datatype DecodeError =
    | StateCountMismatch
    | SymbolCountMismatch
    | MissingSlot
    | BadShift
    | BadStateIndex

  /** The states that are not halting, in list order. */
  function NonHalting(states: seq<State>, halting: seq<State>): (nh: seq<State>)
    ensures |nh| <= |states|
  {
    if |states| == 0 then []
    else (if states[0] in halting then [] else [states[0]]) + NonHalting(states[1..], halting)
  }

  /** The filtered states are exactly the states that are not halting. */
  lemma {:induction false} NonHaltingMembers(states: seq<State>, halting: seq<State>)
    ensures forall q :: q in NonHalting(states, halting) <==> q in states && q !in halting
    decreases |states|
  {
    if |states| > 0 {
      NonHaltingMembers(states[1..], halting);
      assert forall q :: q in states <==> q == states[0] || q in states[1..];
    }
  }

  /** The filter keeps list order: a single state is kept exactly when it is
      not halting, and filtering a concatenation concatenates the filtered
      parts (NonHaltingAppend). Together these fix the result for every
      list. */
  lemma NonHaltingSingle(q: State, halting: seq<State>)
    ensures NonHalting([q], halting) == if q in halting then [] else [q]
  {
    assert [q][1..] == [];
  }

  /** Filtering a concatenation concatenates the filtered parts. */
  lemma {:induction false} NonHaltingAppend(a: seq<State>, b: seq<State>, halting: seq<State>)
    ensures NonHalting(a + b, halting) == NonHalting(a, halting) + NonHalting(b, halting)
    decreases |a|
  {
    if |a| == 0 {
      assert a + b == b;
    } else {
      var h := if a[0] in halting then [] else [a[0]];
      calc {
        NonHalting(a + b, halting);
      == { ConcatSplit(a, b); }
        h + NonHalting(a[1..] + b, halting);
      == { NonHaltingAppend(a[1..], b, halting); }
        h + (NonHalting(a[1..], halting) + NonHalting(b, halting));
      == { assert NonHalting(a, halting) == h + NonHalting(a[1..], halting); }
        NonHalting(a, halting) + NonHalting(b, halting);
      }
    }
  }

  /** The pairs of one symbol with every non-halting state, in state order. */
  function Column(nh: seq<State>, a: Symbol): seq<(State, Symbol)> {
    seq(|nh|, j requires 0 <= j < |nh| => (nh[j], a))
  }

  /** The (state, symbol) pairs in slot order: symbols outer, states inner. */
  function Pairs(nh: seq<State>, symbols: seq<Symbol>): (ps: seq<(State, Symbol)>)
    ensures |ps| == |nh| * |symbols|
  {
    if |symbols| == 0 then []
    else
      assert |nh| * |symbols| == |nh| + |nh| * (|symbols| - 1);
      Column(nh, symbols[0]) + Pairs(nh, symbols[1..])
  }

  /** The pairs are exactly the non-halting states paired with the symbols. */
  lemma {:induction false} PairsMembers(nh: seq<State>, symbols: seq<Symbol>)
    ensures forall p :: p in Pairs(nh, symbols) <==> p.0 in nh && p.1 in symbols
  {
    if |symbols| > 0 {
      PairsMembers(nh, symbols[1..]);
      var col := Column(nh, symbols[0]);
      assert Pairs(nh, symbols) == col + Pairs(nh, symbols[1..]);
      assert forall p :: p in col <==> p.0 in nh && p.1 == symbols[0] by {
        forall p: (State, Symbol) | p.0 in nh && p.1 == symbols[0]
          ensures p in col
        {
          var j :| 0 <= j < |nh| && nh[j] == p.0;
          assert col[j] == p;
        }
      }
      assert forall a :: a in symbols <==> a == symbols[0] || a in symbols[1..];
    }
  }

  /** The shift a decoded shift digit stands for. */
  function ShiftDigit(s: Shift): nat {
    match s
    case L => 0
    case R => 1
  }

  /** A slot whose shift digit is 0 or 1 and whose state index names one of
      `stateCount` states. */
  predicate SlotOk(s: Slot, stateCount: nat) {
    s.shift < 2 && s.state < stateCount
  }

  /** The transition one slot stands for: the written symbol is the digit
      itself, the shift is L for 0 and R for 1, and the next state is looked
      up by index. The shift is checked before the state index. */
  function ToAction(s: Slot, states: seq<State>): (r: Result<Action, DecodeError>)
    ensures r.Ok? <==> SlotOk(s, |states|)
    ensures r.Ok? ==> ShiftDigit(r.value.shift) == s.shift
    ensures r.Ok? ==> r.value.write == s.symbol && r.value.next == states[s.state]
    ensures s.shift >= 2 ==> r == Err(BadShift)
    ensures s.shift < 2 && s.state >= |states| ==> r == Err(BadStateIndex)
  {
    if s.shift > 1 then Err(BadShift)
    else if s.state >= |states| then Err(BadStateIndex)
    else Ok(Action(s.symbol, if s.shift == 0 then L else R, states[s.state]))
  }

  /** Filling the table pair by pair from the slots, a later pair with the
      same key overwriting an earlier one; the first bad or missing slot is
      the error. */
  function DecodeSlots(pairs: seq<(State, Symbol)>, slots: seq<Slot>, states: seq<State>): (r: Result<Table, DecodeError>)
    ensures r.Ok? <==> |pairs| <= |slots| && forall k :: 0 <= k < |pairs| ==> SlotOk(slots[k], |states|)
    decreases |pairs|
  {
    if |pairs| == 0 then Ok(map[])
    else
      var last := |pairs| - 1;
      match DecodeSlots(pairs[..last], slots, states)
      case Err(e) => Err(e)
      case Ok(t) =>
        if last >= |slots| then Err(MissingSlot)
        else
          match ToAction(slots[last], states)
          case Err(e) => Err(e)
          case Ok(a) => Ok(t[pairs[last] := a])
  }

  /** The first k slots are present and well formed. */
  predicate SlotsOkBefore(slots: seq<Slot>, k: nat, stateCount: nat) {
    k <= |slots| && forall i :: 0 <= i < k ==> SlotOk(slots[i], stateCount)
  }

  /** The error is the one of the first slot that is missing or bad: when the
      slots before k are all present and well formed and slot k is missing or
      bad, decoding reports MissingSlot or slot k's own error. */
  lemma {:induction false} DecodeSlotsFirstError(pairs: seq<(State, Symbol)>, slots: seq<Slot>, states: seq<State>, k: nat)
    requires k < |pairs|
    requires SlotsOkBefore(slots, k, |states|)
    requires k >= |slots| || !SlotOk(slots[k], |states|)
    ensures DecodeSlots(pairs, slots, states) == Err(if k >= |slots| then MissingSlot else ToAction(slots[k], states).error)
    decreases |pairs|
  {
    var last := |pairs| - 1;
    var prefix := pairs[..last];
    if k < last {
      assert k < |prefix|;
      DecodeSlotsFirstError(prefix, slots, states, k);
    } else {
      if k > 0 {
        assert k - 1 < |slots| && SlotOk(slots[k - 1], |states|);
      }
      assert DecodeSlots(prefix, slots, states).Ok?;
    }
  }

  /** The decoded table has exactly the pairs as keys. */
  lemma {:induction false} DecodeSlotsKeys(pairs: seq<(State, Symbol)>, slots: seq<Slot>, states: seq<State>)
    requires DecodeSlots(pairs, slots, states).Ok?
    ensures forall p :: p in DecodeSlots(pairs, slots, states).value <==> p in pairs
    decreases |pairs|
  {
    if |pairs| > 0 {
      var last := |pairs| - 1;
      var prefix := pairs[..last];
      DecodeSlotsKeys(prefix, slots, states);
      assert pairs == prefix + [pairs[last]];
    }
  }

  /** A pair gets the transition of the slot at its last occurrence in the
      pairs. */
  lemma {:induction false} DecodeSlotsEntries(pairs: seq<(State, Symbol)>, slots: seq<Slot>, states: seq<State>, k: int)
    requires DecodeSlots(pairs, slots, states).Ok?
    requires 0 <= k < |pairs| && pairs[k] !in pairs[k + 1..]
    ensures pairs[k] in DecodeSlots(pairs, slots, states).value
    ensures DecodeSlots(pairs, slots, states).value[pairs[k]] == ToAction(slots[k], states).value
    decreases |pairs|
  {
    var last := |pairs| - 1;
    var prefix := pairs[..last];
    if k < last {
      assert pairs[last] in pairs[k + 1..];
      assert prefix[k + 1..] == pairs[k + 1..last];
      DecodeSlotsEntries(prefix, slots, states, k);
    }
  }

  /** Duplicate-free pairs give a table with one entry per pair. */
  lemma {:induction false} DecodeSlotsSize(pairs: seq<(State, Symbol)>, slots: seq<Slot>, states: seq<State>)
    requires DecodeSlots(pairs, slots, states).Ok?
    requires Distinct(pairs)
    ensures |DecodeSlots(pairs, slots, states).value| == |pairs|
    decreases |pairs|
  {
    if |pairs| > 0 {
      var last := |pairs| - 1;
      var prefix := pairs[..last];
      assert Distinct(prefix);
      DecodeSlotsSize(prefix, slots, states);
      DecodeSlotsKeys(prefix, slots, states);
      assert pairs[last] !in prefix;
    }
  }

  /** Decoding an encoding: the header must give the number of states minus
      the number of halting states and the number of symbols; then one slot
      is consumed per non-halting (state, symbol) pair. */
  function Decode(e: Code, states: seq<State>, halting: seq<State>, symbols: seq<Symbol>): (r: Result<Table, DecodeError>)
    ensures |states| - |halting| != e.stateCount ==> r == Err(StateCountMismatch)
    ensures |states| - |halting| == e.stateCount && |symbols| != e.symbolCount ==> r == Err(SymbolCountMismatch)
    ensures r.Ok? <==>
      && |states| - |halting| == e.stateCount
      && |symbols| == e.symbolCount
      && |NonHalting(states, halting)| * |symbols| <= |e.slots|
      && forall k :: 0 <= k < |NonHalting(states, halting)| * |symbols| ==> SlotOk(e.slots[k], |states|)
  {
    if |states| - |halting| != e.stateCount then Err(StateCountMismatch)
    else if |symbols| != e.symbolCount then Err(SymbolCountMismatch)
    else DecodeSlots(Pairs(NonHalting(states, halting), symbols), e.slots, states)
  }

  /** With a matching header, the error of a refused encoding is that of its
      first missing or bad slot. */
  lemma DecodeFirstError(e: Code, states: seq<State>, halting: seq<State>, symbols: seq<Symbol>, k: nat)
    requires |states| - |halting| == e.stateCount && |symbols| == e.symbolCount
    requires k < |NonHalting(states, halting)| * |symbols|
    requires SlotsOkBefore(e.slots, k, |states|)
    requires k >= |e.slots| || !SlotOk(e.slots[k], |states|)
    ensures Decode(e, states, halting, symbols)
            == Err(if k >= |e.slots| then MissingSlot else ToAction(e.slots[k], states).error)
  {
    var ps := Pairs(NonHalting(states, halting), symbols);
    assert k < |ps|;
    DecodeSlotsFirstError(ps, e.slots, states, k);
  }

  /** A decoded table has an entry for exactly the (state, symbol) pairs whose
      state is not halting. */
  lemma DecodedKeys(e: Code, states: seq<State>, halting: seq<State>, symbols: seq<Symbol>)
    requires Decode(e, states, halting, symbols).Ok?
    ensures forall q, a :: (q, a) in Decode(e, states, halting, symbols).value <==>
                           q in states && q !in halting && a in symbols
  {
    DecodeSlotsKeys(Pairs(NonHalting(states, halting), symbols), e.slots, states);
    PairsMembers(NonHalting(states, halting), symbols);
    NonHaltingMembers(states, halting);
  }

  /** Over duplicate-free lists whose halting states are all states, a decoded
      table has one entry per non-halting state and symbol. */
  lemma DecodedSize(e: Code, states: seq<State>, halting: seq<State>, symbols: seq<Symbol>)
    requires Distinct(states) && Distinct(halting) && Distinct(symbols)
    requires forall h :: h in halting ==> h in states
    requires Decode(e, states, halting, symbols).Ok?
    ensures |Decode(e, states, halting, symbols).value| == (|states| - |halting|) * |symbols|
  {
    var nh := NonHalting(states, halting);
    NonHaltingDistinct(states, halting);
    PairsDistinct(nh, symbols);
    DecodeSlotsSize(Pairs(nh, symbols), e.slots, states);
    PairCount(states, halting, symbols);
  }

  /** The position of row i when every row holds n entries, counted without
      multiplication. */
  function RowStart(n: nat, i: nat): nat {
    if i == 0 then 0 else n + RowStart(n, i - 1)
  }

  /** Row i starts at n * i. */
  lemma {:induction false} RowStartIsProduct(n: nat, i: nat)
    ensures RowStart(n, i) == n * i
  {
    if i > 0 {
      RowStartIsProduct(n, i - 1);
      assert n * i == n + n * (i - 1);
    }
  }

  /** Entry j of row i of the pairs is the j-th non-halting state with the
      i-th symbol. */
  lemma {:induction false} PairsAtRow(nh: seq<State>, symbols: seq<Symbol>, i: nat, j: nat)
    requires i < |symbols| && j < |nh|
    ensures RowStart(|nh|, i) + j < |Pairs(nh, symbols)|
    ensures Pairs(nh, symbols)[RowStart(|nh|, i) + j] == (nh[j], symbols[i])
  {
    var col := Column(nh, symbols[0]);
    var rest := Pairs(nh, symbols[1..]);
    assert Pairs(nh, symbols) == col + rest;
    if i == 0 {
      assert RowStart(|nh|, i) + j == j;
      assert (col + rest)[j] == col[j] == (nh[j], symbols[i]);
    } else {
      var x := RowStart(|nh|, i - 1) + j;
      PairsAtRow(nh, symbols[1..], i - 1, j);
      assert rest[x] == (nh[j], symbols[i]) by {
        assert symbols[1..][i - 1] == symbols[i];
      }
      IndexAfter(col, rest, x);
      assert RowStart(|nh|, i) + j == |col| + x;
    }
  }

  /** Pair number |nh| * i + j is the j-th non-halting state with the i-th symbol. */
  lemma PairsAt(nh: seq<State>, symbols: seq<Symbol>, i: nat, j: nat)
    requires i < |symbols| && j < |nh|
    ensures |nh| * i + j < |Pairs(nh, symbols)|
    ensures Pairs(nh, symbols)[|nh| * i + j] == (nh[j], symbols[i])
  {
    PairsAtRow(nh, symbols, i, j);
    RowStartIsProduct(|nh|, i);
  }

  /** With duplicate-free lists, the k-th slot becomes the transition of the
      k-th pair in slot order (PairsAt says which pair that is). */
  lemma DecodeSlotOrder(e: Code, states: seq<State>, halting: seq<State>, symbols: seq<Symbol>, k: nat)
    requires Distinct(states) && Distinct(symbols)
    requires Decode(e, states, halting, symbols).Ok?
    requires k < |Pairs(NonHalting(states, halting), symbols)|
    ensures
      var p := Pairs(NonHalting(states, halting), symbols)[k];
      && SlotOk(e.slots[k], |states|)
      && p in Decode(e, states, halting, symbols).value
      && Decode(e, states, halting, symbols).value[p] == ToAction(e.slots[k], states).value
  {
    var nh := NonHalting(states, halting);
    var ps := Pairs(nh, symbols);
    NonHaltingDistinct(states, halting);
    PairsDistinct(nh, symbols);
    assert ps[k] !in ps[k + 1..];
    DecodeSlotsEntries(ps, e.slots, states, k);
  }

  /** Filtering a duplicate-free list leaves it duplicate-free. */
  lemma {:induction false} NonHaltingDistinct(states: seq<State>, halting: seq<State>)
    requires Distinct(states)
    ensures Distinct(NonHalting(states, halting))
  {
    if |states| > 0 {
      assert Distinct(states[1..]);
      NonHaltingDistinct(states[1..], halting);
      var head: seq<State> := if states[0] in halting then [] else [states[0]];
      NonHaltingMembers(states[1..], halting);
      assert forall q :: q in head ==> q !in NonHalting(states[1..], halting);
      DistinctConcat(head, NonHalting(states[1..], halting));
    }
  }

  /** Pairs of duplicate-free lists are duplicate-free. */
  lemma {:induction false} PairsDistinct(nh: seq<State>, symbols: seq<Symbol>)
    requires Distinct(nh) && Distinct(symbols)
    ensures Distinct(Pairs(nh, symbols))
  {
    if |symbols| > 0 {
      assert Distinct(symbols[1..]);
      PairsDistinct(nh, symbols[1..]);
      var col := Column(nh, symbols[0]);
      assert Distinct(col);
      assert forall p :: p in col ==> p.1 == symbols[0];
      PairsMembers(nh, symbols[1..]);
      DistinctConcat(col, Pairs(nh, symbols[1..]));
    }
  }

  /** When no halting state is missing from the duplicate-free states and no
      halting state repeats, there are exactly |states| - |halting| non-halting
      states. */
  lemma NonHaltingCount(states: seq<State>, halting: seq<State>)
    requires Distinct(states) && Distinct(halting)
    requires forall h :: h in halting ==> h in states
    ensures |NonHalting(states, halting)| == |states| - |halting|
  {
    var nh := NonHalting(states, halting);
    NonHaltingDistinct(states, halting);
    NonHaltingMembers(states, halting);
    DistinctCard(nh);
    DistinctCard(states);
    DistinctCard(halting);
    assert Elems(nh) == Elems(states) - Elems(halting);
    assert Elems(halting) <= Elems(states);
    assert Elems(states) == Elems(nh) + Elems(halting);
  }

  /** Under the same conditions there are (|states| - |halting|) * |symbols|
      pairs, as many as the encoder writes slots. */
  lemma PairCount(states: seq<State>, halting: seq<State>, symbols: seq<Symbol>)
    requires Distinct(states) && Distinct(halting)
    requires forall h :: h in halting ==> h in states
    ensures |halting| <= |states|
    ensures |Pairs(NonHalting(states, halting), symbols)| == (|states| - |halting|) * |symbols|
  {
    NonHaltingCount(states, halting);
    var n := |NonHalting(states, halting)|;
    assert n * |symbols| == (|states| - |halting|) * |symbols|;
  }

  /** Slots past the ones the pairs consume are never read. */
  lemma {:induction false} DecodeSlotsIgnoresExtra(pairs: seq<(State, Symbol)>, slots: seq<Slot>, extra: seq<Slot>, states: seq<State>)
    requires |pairs| <= |slots|
    ensures DecodeSlots(pairs, slots + extra, states) == DecodeSlots(pairs, slots, states)
    decreases |pairs|
  {
    if |pairs| > 0 {
      DecodeSlotsIgnoresExtra(pairs[..|pairs| - 1], slots, extra, states);
      assert (slots + extra)[|pairs| - 1] == slots[|pairs| - 1];
    }
  }

  /** Extra slots after the ones the lists need change nothing. */
  lemma DecodeIgnoresExtraSlots(e: Code, extra: seq<Slot>, states: seq<State>, halting: seq<State>, symbols: seq<Symbol>)
    requires |NonHalting(states, halting)| * |symbols| <= |e.slots|
    ensures Decode(e.(slots := e.slots + extra), states, halting, symbols) == Decode(e, states, halting, symbols)
  {
    DecodeSlotsIgnoresExtra(Pairs(NonHalting(states, halting), symbols), e.slots, extra, states);
  }
}

=== FILE: encoding.dfy ===
/** Machine numbers: a machine number is read as a mixed-radix number with
    three digits per transition slot, least significant first: the written
    symbol (radix K), the shift (radix 2) and the next state's index (radix S),
    for S states, H of them halting, and K symbols. */
module Encoding {

  /** One transition slot: written symbol, shift digit (0 = L, 1 = R) and the
      index of the next state in the list of states. */
  datatype Slot = Slot(symbol: nat, shift: nat, state: nat)

  /** An encoding: the header (number of non-halting states, number of
      symbols) and the slots in order. */
  datatype Code = Code(stateCount: int, symbolCount: int, slots: seq<Slot>)

  /** b raised to e. */
  function Pow(b: nat, e: nat): (p: nat)
    ensures b > 0 ==> p > 0
  {
    if e == 0 then 1 else b * Pow(b, e - 1)
  }

  /** Every digit is below its radix. */
  predicate InRadix(ds: seq<Slot>, S: nat, K: nat) {
    forall i :: 0 <= i < |ds| ==> ds[i].symbol < K && ds[i].shift < 2 && ds[i].state < S
  }

  /** The `count` slots of the machine number `n`, least significant first,
      using floor division and its non-negative remainder. */
  function Digits(n: int, count: nat, S: nat, K: nat): (ds: seq<Slot>)
    requires S > 0 && K > 0
    ensures |ds| == count
    ensures InRadix(ds, S, K)
    decreases count
  {
    if count == 0 then []
    else
      var afterSymbol := n / K;
      var afterShift := afterSymbol / 2;
      [Slot(n % K, afterSymbol % 2, afterShift % S)] + Digits(afterShift / S, count - 1, S, K)
  }

  /** The encoding of machine number `n`: the header (S - H, K) followed by
      (S - H) * K slots; no slots when that product is not positive. */
  function Encode(n: int, S: nat, H: nat, K: nat): (e: Code)
    ensures e.stateCount == S - H && e.symbolCount == K
    ensures |e.slots| == if H < S then (S - H) * K else 0
    ensures InRadix(e.slots, S, K)
  {
    Code(S - H, K, if H < S && K > 0 then Digits(n, (S - H) * K, S, K) else [])
  }

  /** With no more halting states than states, the encoding has exactly
      (S - H) * K slots. */
  lemma EncodeSlotCount(n: int, S: nat, H: nat, K: nat)
    requires H <= S
    ensures |Encode(n, S, H, K).slots| == (S - H) * K
  {
    if H == S {
      assert (S - H) * K == 0;
    }
  }

  /** The number of distinct machine numbers: (2 * S * K) to the power of the
      number of slots. With no symbols there are no slots and one machine
      number, whatever the number of halting states. */
  function MaxMachines(S: nat, H: nat, K: nat): (m: nat)
    requires H <= S || K == 0
    ensures m > 0
    ensures K == 0 ==> m == 1
  {
    if H < S && K > 0 then
      MulAtLeast(2 * S, K);
      Pow(2 * S * K, (S - H) * K)
    else
      assert (S - H) * K == 0;
      Pow(2 * S * K, (S - H) * K)
  }

  /** The value of a slot sequence read back as a mixed-radix number. */
  function Recombine(ds: seq<Slot>, S: nat, K: nat): int {
    if |ds| == 0 then 0
    else ds[0].symbol + K * (ds[0].shift + 2 * (ds[0].state + S * Recombine(ds[1..], S, K)))
  }

  // Arithmetic facts about Euclidean division.

  /** A quotient and remainder that satisfy the division equation are the
      quotient and remainder. */
  lemma DivModUnique(x: int, d: int, q: int, r: int)
    requires d > 0 && 0 <= r < d && x == q * d + r
    ensures x / d == q && x % d == r
  {
    var q0, r0 := x / d, x % d;
    assert x == q0 * d + r0;
    assert (q - q0) * d == r0 - r;
    if q > q0 {
      MulAtLeast(q - q0, d);
    } else if q < q0 {
      MulAtLeast(q0 - q, d);
    }
  }

  /** Every integer is its quotient times the divisor plus its remainder. */
  lemma DivModSplit(x: int, d: int)
    requires d > 0
    ensures x == d * (x / d) + x % d
  {
  }

  /** Multiplying by a non-negative factor keeps the order. */
  lemma MulMonotone(c: int, a: int, b: int)
    requires c >= 0 && a <= b
    ensures c * a <= c * b
  {
    assert c * b - c * a == c * (b - a);
  }

  /** A multiple by at least one is at least the multiplicand. */
  lemma MulAtLeast(a: int, d: int)
    requires a >= 1 && d > 0
    ensures a * d >= d
  {
    assert a * d == (a - 1) * d + d;
  }

  /** The three digits of one slot, read together, stay below 2 * S * K. */
  lemma SlotValueBound(s: int, sh: int, st: int, S: nat, K: nat)
    requires 0 <= s < K && 0 <= sh < 2 && 0 <= st < S
    ensures 0 <= s + K * sh + 2 * K * st < 2 * S * K
  {
    assert K * sh <= K * 1;
    assert 2 * K * st <= 2 * K * (S - 1);
  }

  /** Distributing the nested mixed-radix form of one slot. */
  lemma SlotDistribute(s: int, sh: int, st: int, m: int, S: nat, K: nat)
    ensures s + K * (sh + 2 * (st + S * m)) == s + K * sh + 2 * K * st + (2 * S * K) * m
  {
    calc {
      s + K * (sh + 2 * (st + S * m));
      s + K * sh + K * (2 * st) + K * (2 * (S * m));
      { assert K * (2 * (S * m)) == (2 * S * K) * m; assert K * (2 * st) == 2 * K * st; }
      s + K * sh + 2 * K * st + (2 * S * K) * m;
    }
  }

  /** A low digit below B plus B times a value below P stays below B * P. */
  lemma MixedBound(r: int, q: int, B: nat, P: nat)
    requires 0 <= r < B && 0 <= q < P
    ensures 0 <= r + B * q < B * P
  {
    MulMonotone(B, q, P - 1);
    assert B * (P - 1) == B * P - B;
  }

  /** Splitting off the low digit of a two-level mixed-radix number:
      if 0 <= r < B then (r + B * q) % (B * P) == r + B * (q % P). */
  lemma ModOfMixed(r: int, q: int, B: nat, P: nat)
    requires B > 0 && P > 0 && 0 <= r < B
    ensures (r + B * q) % (B * P) == r + B * (q % P)
  {
    var lo := r + B * (q % P);
    assert q == (q / P) * P + q % P;
    assert B * q == B * (q / P) * P + B * (q % P) by {
      assert B * q == B * ((q / P) * P + q % P);
    }
    assert r + B * q == (q / P) * (B * P) + lo;
    assert B * (q % P) <= B * (P - 1);
    assert 0 <= lo < B * P;
    DivModUnique(r + B * q, B * P, q / P, lo);
  }

  /** Reading the digits of `n` back gives `n` modulo the size of the index
      space. */
  lemma {:induction false} RecombineDigits(n: int, count: nat, S: nat, K: nat)
    requires S > 0 && K > 0
    ensures Recombine(Digits(n, count, S, K), S, K) == n % Pow(2 * S * K, count)
    decreases count
  {
    var B := 2 * S * K;
    if count == 0 {
      assert n % 1 == 0;
    } else {
      var ds := Digits(n, count, S, K);
      var n1 := n / K;
      var n2 := n1 / 2;
      var n3 := n2 / S;
      var P := Pow(B, count - 1);
      assert ds[1..] == Digits(n3, count - 1, S, K);
      RecombineDigits(n3, count - 1, S, K);
      var s, sh, st := n % K, n1 % 2, n2 % S;
      DivModSplit(n, K);
      DivModSplit(n1, 2);
      DivModSplit(n2, S);
      SlotDistribute(s, sh, st, n3, S, K);
      assert n == s + K * sh + 2 * K * st + B * n3;
      SlotValueBound(s, sh, st, S, K);
      var r := s + K * sh + 2 * K * st;
      ModOfMixed(r, n3, B, P);
      SlotDistribute(s, sh, st, n3 % P, S, K);
    }
  }

  /** Dropping the first slot keeps the rest inside the radices. */
  lemma InRadixTail(ds: seq<Slot>, S: nat, K: nat)
    requires |ds| > 0 && InRadix(ds, S, K)
    ensures InRadix(ds[1..], S, K)
  {
    forall i | 0 <= i < |ds[1..]|
      ensures ds[1..][i].symbol < K && ds[1..][i].shift < 2 && ds[1..][i].state < S
    {
      assert ds[1..][i] == ds[i + 1];
    }
  }

  /** A slot sequence inside the radices reads back to a number of the index
      space. */
  lemma {:induction false} RecombineInRange(ds: seq<Slot>, S: nat, K: nat)
    requires S > 0 && K > 0
    requires InRadix(ds, S, K)
    ensures 0 <= Recombine(ds, S, K) < Pow(2 * S * K, |ds|)
  {
    if |ds| > 0 {
      var B := 2 * S * K;
      var P := Pow(B, |ds| - 1);
      var rest := Recombine(ds[1..], S, K);
      InRadixTail(ds, S, K);
      RecombineInRange(ds[1..], S, K);
      var s, sh, st := ds[0].symbol, ds[0].shift, ds[0].state;
      SlotDistribute(s, sh, st, rest, S, K);
      SlotValueBound(s, sh, st, S, K);
      MixedBound(s + K * sh + 2 * K * st, rest, B, P);
    }
  }

  /** Digit sequences inside the radices are exactly the digits of their own
      value. */
  lemma {:induction false} DigitsOfRecombine(ds: seq<Slot>, S: nat, K: nat)
    requires S > 0 && K > 0
    requires InRadix(ds, S, K)
    ensures Digits(Recombine(ds, S, K), |ds|, S, K) == ds
  {
    if |ds| > 0 {
      var rest := Recombine(ds[1..], S, K);
      InRadixTail(ds, S, K);
      DigitsOfRecombine(ds[1..], S, K);
      var s, sh, st := ds[0].symbol, ds[0].shift, ds[0].state;
      var x := Recombine(ds, S, K);
      var n2 := st + S * rest;
      var n1 := sh + 2 * n2;
      assert x == s + K * n1;
      DivModUnique(x, K, n1, s);
      DivModUnique(n1, 2, n2, sh);
      DivModUnique(n2, S, rest, st);
      assert Digits(x, |ds|, S, K) == [Slot(s, sh, st)] + Digits(rest, |ds| - 1, S, K);
      assert ds == [ds[0]] + ds[1..];
    }
  }

  /** The digits depend only on `n` modulo the size of the index space. */
  lemma DigitsDependOnResidue(n: int, count: nat, S: nat, K: nat)
    requires S > 0 && K > 0
    ensures Digits(n, count, S, K) == Digits(n % Pow(2 * S * K, count), count, S, K)
  {
    RecombineDigits(n, count, S, K);
    DigitsOfRecombine(Digits(n, count, S, K), S, K);
  }

  /** Distinct numbers of the index space have distinct digits. */
  lemma DigitsInjective(a: int, b: int, count: nat, S: nat, K: nat)
    requires S > 0 && K > 0
    requires 0 <= a < Pow(2 * S * K, count) && 0 <= b < Pow(2 * S * K, count)
    requires Digits(a, count, S, K) == Digits(b, count, S, K)
    ensures a == b
  {
    RecombineDigits(a, count, S, K);
    RecombineDigits(b, count, S, K);
    DivModUnique(a, Pow(2 * S * K, count), 0, a);
    DivModUnique(b, Pow(2 * S * K, count), 0, b);
  }

  /** The encoding of a machine number depends only on its residue modulo
      MaxMachines, reading the slots back gives that residue, distinct
      numbers below MaxMachines have distinct encodings, and every slot
      sequence inside the radices is the encoding of some number below
      MaxMachines. */
  lemma EncodeIndexSpace(n: int, S: nat, H: nat, K: nat)
    requires H <= S
    ensures Encode(n, S, H, K) == Encode(n % MaxMachines(S, H, K), S, H, K)
    ensures Recombine(Encode(n, S, H, K).slots, S, K) == n % MaxMachines(S, H, K)
  {
    if H < S && K > 0 {
      DigitsDependOnResidue(n, (S - H) * K, S, K);
      RecombineDigits(n, (S - H) * K, S, K);
    } else {
      assert (S - H) * K == 0;
      assert n % 1 == 0;
    }
  }

  /** Distinct machine numbers below MaxMachines have distinct encodings. */
  lemma EncodeInjective(a: int, b: int, S: nat, H: nat, K: nat)
    requires H <= S
    requires 0 <= a < MaxMachines(S, H, K) && 0 <= b < MaxMachines(S, H, K)
    requires Encode(a, S, H, K) == Encode(b, S, H, K)
    ensures a == b
  {
    if H < S && K > 0 {
      DigitsInjective(a, b, (S - H) * K, S, K);
    } else {
      assert (S - H) * K == 0;
    }
  }

  /** Every slot sequence of the right length inside the radices is the
      encoding of exactly one machine number below MaxMachines. */
  lemma EncodeSurjective(ds: seq<Slot>, S: nat, H: nat, K: nat)
    requires H < S && K > 0
    requires |ds| == (S - H) * K && InRadix(ds, S, K)
    ensures 0 <= Recombine(ds, S, K) < MaxMachines(S, H, K)
    ensures Encode(Recombine(ds, S, K), S, H, K).slots == ds
  {
    RecombineInRange(ds, S, K);
    DigitsOfRecombine(ds, S, K);
  }
}

=== FILE: machine.dfy ===
/** The Turing machine: configuration checks performed at construction, and
    the single deterministic step. */
module TuringMachines {
  import opened Wrappers
  import opened Tapes

  /** State labels are opaque names such as "HALT" or "A"; symbols are integers. */
  type State = string
  type Symbol = int

  /** Head movement; the encoding writes L as digit 0 and R as digit 1. */
  datatype Shift = L | R

  /** What a transition does: the symbol written, the head move and the next state. */
  datatype Action = Action(write: Symbol, shift: Shift, next: State)

  /** Transitions keyed by (state, symbol read). */
  type Table = map<(State, Symbol), Action>

  /** Everything the machine is built from. The state, symbol and final-state
      collections are lists: membership is `in`, and their lengths count
      duplicates. */
  datatype Config = Config(
    states: seq<State>,
    symbols: seq<Symbol>,
    blank: Symbol,
    input: seq<Symbol>,
    initial: State,
    finals: seq<State>,
    transitions: Table)

  /** The configuration errors, in the order the checks run. */
  datatype ConfigError =
    | BlankNotInSymbols
    | InputSymbolNotInSymbols
    | InitialStateNotInStates
    | FinalStateNotInStates
    | TransitionCountMismatch
    | MissingTransition

  /** The position of a check in the sequence of checks. */
  function Rank(e: ConfigError): nat {
    match e
    case BlankNotInSymbols => 0
    case InputSymbolNotInSymbols => 1
    case InitialStateNotInStates => 2
    case FinalStateNotInStates => 3
    case TransitionCountMismatch => 4
    case MissingTransition => 5
  }

  /** The configuration fails the check that raises `e`. The count check
      subtracts one from the number of states whatever the number of final
      states is. */
  predicate Violates(c: Config, e: ConfigError) {
    match e
    case BlankNotInSymbols => c.blank !in c.symbols
    case InputSymbolNotInSymbols => exists v :: v in c.input && v !in c.symbols
    case InitialStateNotInStates => c.initial !in c.states
    case FinalStateNotInStates => exists f :: f in c.finals && f !in c.states
    case TransitionCountMismatch => (|c.states| - 1) * |c.symbols| != |c.transitions|
    case MissingTransition =>
      exists q, a :: q in c.states && a in c.symbols && q !in c.finals && (q, a) !in c.transitions
  }

  /** A configuration that passes every check: the blank and the input are
      symbols, the initial and final states are states, there are
      (number of states - 1) * (number of symbols) transitions, and every
      non-final (state, symbol) pair has one. */
  predicate Valid(c: Config) {
    && c.blank in c.symbols
    && (forall v :: v in c.input ==> v in c.symbols)
    && c.initial in c.states
    && (forall f :: f in c.finals ==> f in c.states)
    && (|c.states| - 1) * |c.symbols| == |c.transitions|
    && (forall q, a :: q in c.states && a in c.symbols && q !in c.finals ==> (q, a) in c.transitions)
  }

  /** A configuration is valid exactly when it fails none of the checks. */
  lemma ValidIffNoViolation(c: Config)
    ensures Valid(c) <==> forall e :: !Violates(c, e)
  {
    if !Valid(c) {
      if c.blank !in c.symbols {
        assert Violates(c, BlankNotInSymbols);
      } else if !(forall v :: v in c.input ==> v in c.symbols) {
        assert Violates(c, InputSymbolNotInSymbols);
      } else if c.initial !in c.states {
        assert Violates(c, InitialStateNotInStates);
      } else if !(forall f :: f in c.finals ==> f in c.states) {
        assert Violates(c, FinalStateNotInStates);
      } else if (|c.states| - 1) * |c.symbols| != |c.transitions| {
        assert Violates(c, TransitionCountMismatch);
      } else {
        assert Violates(c, MissingTransition);
      }
    }
  }

  /** A running machine: its configuration, tape, current state and head position. */
  datatype Machine = Machine(config: Config, tape: Tape, state: State, pos: int)

  /** Building a machine. The tape is built over the input with blank 0, not
      with the configured blank symbol. */
  function Construct(c: Config): (r: Result<Machine, ConfigError>)
    ensures r.Ok? <==> Valid(c)
    ensures r.Err? ==> Violates(c, r.error)
    ensures r.Err? ==> forall e :: Violates(c, e) ==> Rank(r.error) <= Rank(e)
    ensures r.Ok? ==> r.value.config == c && r.value.state == c.initial && r.value.pos == 0
    ensures r.Ok? ==> r.value.tape == NewTape(c.input, 0)
  {
    if c.blank !in c.symbols then Err(BlankNotInSymbols)
    else if exists v :: v in c.input && v !in c.symbols then Err(InputSymbolNotInSymbols)
    else if c.initial !in c.states then Err(InitialStateNotInStates)
    else if exists f :: f in c.finals && f !in c.states then Err(FinalStateNotInStates)
    else if (|c.states| - 1) * |c.symbols| != |c.transitions| then Err(TransitionCountMismatch)
    else if exists q, a :: q in c.states && a in c.symbols && q !in c.finals && (q, a) !in c.transitions then
      Err(MissingTransition)
    else
      Ok(Machine(c, NewTape(c.input, 0), c.initial, 0))
  }

  /** The error reported is the first check, in check order, that the
      configuration fails. */
  lemma ConstructReportsFirstViolation(c: Config, e: ConfigError)
    requires Violates(c, e)
    requires forall e' :: Rank(e') < Rank(e) ==> !Violates(c, e')
    ensures Construct(c) == Err(e)
  {
    var r := Construct(c);
    assert !Valid(c) by {
      ValidIffNoViolation(c);
    }
  }

  /** A configuration that passes the first four checks but has the wrong
      number of transitions is refused by the count check. */
  lemma CountMismatchRefused(c: Config)
    requires c.blank in c.symbols
    requires forall v :: v in c.input ==> v in c.symbols
    requires c.initial in c.states
    requires forall f :: f in c.finals ==> f in c.states
    requires (|c.states| - 1) * |c.symbols| != |c.transitions|
    ensures Construct(c) == Err(TransitionCountMismatch)
  {
    ConstructReportsFirstViolation(c, TransitionCountMismatch);
  }

  /** A configuration that passes the first five checks but lacks the
      transition for a non-final state q and a symbol a is refused by the
      completeness check. */
  lemma MissingTransitionRefused(c: Config, q: State, a: Symbol)
    requires c.blank in c.symbols
    requires forall v :: v in c.input ==> v in c.symbols
    requires c.initial in c.states
    requires forall f :: f in c.finals ==> f in c.states
    requires (|c.states| - 1) * |c.symbols| == |c.transitions|
    requires q in c.states && a in c.symbols && q !in c.finals && (q, a) !in c.transitions
    ensures Construct(c) == Err(MissingTransition)
  {
    ConstructReportsFirstViolation(c, MissingTransition);
  }

  /** The errors a step can raise: a tape IndexError, or the KeyError of a
      (state, symbol) pair with no transition. */
  datatype StepError = TapeFault | NoTransition

  /** The head position after moving by `shift`. */
  function Move(pos: int, shift: Shift): int {
    match shift
    case R => pos + 1
    case L => pos - 1
  }

  /** One step: a machine in a final state is left alone and reports false;
      otherwise the transition for the current state and the symbol under the
      head sets the state, writes the cell and moves the head, and the step
      reports true. */
  function Step(m: Machine): (r: Result<(Machine, bool), StepError>)
    ensures m.state in m.config.finals ==> r == Ok((m, false))
    ensures r.Ok? ==> (r.value.1 <==> m.state !in m.config.finals)
    ensures r.Ok? ==> r.value.0.config == m.config
    ensures r.Ok? && r.value.1 ==> r.value.0.pos == m.pos + 1 || r.value.0.pos == m.pos - 1
    ensures r.Err? ==> m.state !in m.config.finals
    ensures r == Err(NoTransition) <==>
      && m.state !in m.config.finals
      && Read(m.tape, m.pos).Ok?
      && (m.state, Read(m.tape, m.pos).value) !in m.config.transitions
    ensures r == Err(TapeFault) ==> !WellFormed(m.tape) || !Adjacent(m.tape, m.pos)
    ensures m.tape.minIndex <= 0 <= m.tape.maxIndex ==>
      (r == Err(TapeFault) <==> m.state !in m.config.finals && Read(m.tape, m.pos).Err?)
    ensures Covers(m.tape) ==> r != Err(TapeFault)
  {
    if m.state in m.config.finals then Ok((m, false))
    else
      match Read(m.tape, m.pos)
      case Err(_) => Err(TapeFault)
      case Ok(sym) =>
        if (m.state, sym) !in m.config.transitions then Err(NoTransition)
        else
          var a := m.config.transitions[(m.state, sym)];
          match Write(m.tape, m.pos, a.write)
          case Err(_) => Err(TapeFault)
          case Ok(t) => Ok((m.(state := a.next, tape := t, pos := Move(m.pos, a.shift)), true))
  }

  /** A running step on a well-formed tape with the head at most one cell past
      a bound: the machine takes the transition for the symbol under the head,
      the old head cell then holds the written symbol, every other cell is
      unchanged, and the head has moved one cell in the transition's direction. */
  lemma {:induction false} StepRunning(m: Machine)
    requires WellFormed(m.tape) && Adjacent(m.tape, m.pos)
    requires m.state !in m.config.finals
    requires (m.state, Read(m.tape, m.pos).value) in m.config.transitions
    ensures Step(m).Ok? && Step(m).value.1
    ensures
      var a := m.config.transitions[(m.state, Read(m.tape, m.pos).value)];
      var m' := Step(m).value.0;
      && m'.state == a.next
      && m'.pos == Move(m.pos, a.shift)
      && WellFormed(m'.tape)
      && Read(m'.tape, m.pos) == Ok(a.write)
      && forall j :: j != m.pos ==> Read(m'.tape, j) == Read(m.tape, j)
  {
    var a := m.config.transitions[(m.state, Read(m.tape, m.pos).value)];
    WriteThenRead(m.tape, m.pos, a.write);
  }

  /** Every stored cell of the tape holds one of `symbols`. */
  predicate CellsIn(t: Tape, symbols: seq<Symbol>) {
    && (forall i :: 0 <= i < |t.positive| ==> t.positive[i] in symbols)
    && (forall i :: 0 <= i < |t.negative| ==> t.negative[i] in symbols)
  }

  /** Every transition writes one of the symbols and moves to one of the states. */
  predicate Closed(transitions: Table, states: seq<State>, symbols: seq<Symbol>) {
    forall k :: k in transitions ==> transitions[k].write in symbols && transitions[k].next in states
  }

  /** A machine that can never fault: the tape covers its bounds, holds only
      symbols (its blank included), the head is at most one cell past a bound,
      the state is a state, every non-final (state, symbol) pair has a
      transition and every transition stays inside the states and symbols. */
  predicate Sound(m: Machine) {
    && Covers(m.tape)
    && m.tape.blank in m.config.symbols
    && CellsIn(m.tape, m.config.symbols)
    && Adjacent(m.tape, m.pos)
    && m.state in m.config.states
    && (forall q, a :: q in m.config.states && a in m.config.symbols && q !in m.config.finals ==>
          (q, a) in m.config.transitions)
    && Closed(m.config.transitions, m.config.states, m.config.symbols)
  }

  /** A sound machine steps without fault and stays sound. */
  lemma {:induction false} StepPreservesSound(m: Machine)
    requires Sound(m)
    ensures Step(m).Ok?
    ensures Sound(Step(m).value.0)
  {
    if m.state !in m.config.finals {
      var sym := Read(m.tape, m.pos).value;
      assert sym in m.config.symbols;
      var a := m.config.transitions[(m.state, sym)];
      var t' := Write(m.tape, m.pos, a.write).value;
      WriteStoresOnly(m.tape, m.pos, a.write);
      assert CellsIn(t', m.config.symbols);
    }
  }

  /** A running step on a tape that covers its bounds, with the head at most
      one cell past a bound, never faults: it takes the transition for the
      symbol under the head, and the tape keeps covering its bounds with the
      new head position again at most one cell past a bound. */
  lemma StepOnCoveringTape(m: Machine)
    requires Covers(m.tape) && Adjacent(m.tape, m.pos)
    requires m.state !in m.config.finals
    requires (m.state, Read(m.tape, m.pos).value) in m.config.transitions
    ensures Step(m).Ok? && Step(m).value.1
    ensures
      var a := m.config.transitions[(m.state, Read(m.tape, m.pos).value)];
      var m' := Step(m).value.0;
      && m'.state == a.next
      && m'.pos == Move(m.pos, a.shift)
      && Covers(m'.tape)
      && Adjacent(m'.tape, m'.pos)
  {
  }

  /** `n` successive steps, stopping at the first fault. Steps of a halted
      machine change nothing. */
  function Run(m: Machine, n: nat): Result<Machine, StepError>
    decreases n
  {
    if n == 0 then Ok(m)
    else
      match Step(m)
      case Err(e) => Err(e)
      case Ok((m', _)) => Run(m', n - 1)
  }

  /** A sound machine runs any number of steps without fault and stays sound. */
  lemma {:induction false} RunPreservesSound(m: Machine, n: nat)
    requires Sound(m)
    ensures Run(m, n).Ok? && Sound(Run(m, n).value)
    decreases n
  {
    if n > 0 {
      StepPreservesSound(m);
      RunPreservesSound(Step(m).value.0, n - 1);
    }
  }

  /** A sound machine whose transitions never lead to a final state keeps
      running: after any number of steps it is still sound and not final, so
      its next step reports true. */
  lemma {:induction false} RunAvoidsFinals(m: Machine, n: nat)
    requires Sound(m) && m.state !in m.config.finals
    requires forall k :: k in m.config.transitions ==> m.config.transitions[k].next !in m.config.finals
    ensures Run(m, n).Ok?
    ensures Sound(Run(m, n).value) && Run(m, n).value.state !in m.config.finals
    ensures Step(Run(m, n).value) == Ok((Step(Run(m, n).value).value.0, true))
    decreases n
  {
    StepPreservesSound(m);
    if n > 0 {
      RunAvoidsFinals(Step(m).value.0, n - 1);
    }
    StepPreservesSound(Run(m, n).value);
  }

  /** Once in a final state the machine stays put forever. */
  lemma {:induction false} HaltedIsFixedPoint(m: Machine, n: nat)
    requires m.state in m.config.finals
    ensures Run(m, n) == Ok(m)
  {
    if n > 0 {
      HaltedIsFixedPoint(m, n - 1);
    }
  }

  /** A machine built from a valid configuration over a non-empty input is
      sound, provided its transitions stay inside the states and symbols and
      0, the tape's actual blank, is a symbol. */
  lemma ConstructedIsSound(c: Config)
    requires Valid(c)
    requires |c.input| >= 1
    requires 0 in c.symbols
    requires Closed(c.transitions, c.states, c.symbols)
    ensures Construct(c).Ok? && Sound(Construct(c).value)
  {
    var t := NewTape(c.input, 0);
    assert t.positive == c.input;
    assert forall v :: v in c.input ==> v in c.symbols;
    forall i | 0 <= i < |t.positive|
      ensures t.positive[i] in c.symbols
    {
      assert t.positive[i] in c.input;
    }
  }

  /** A machine built from a valid configuration over a non-empty input whose
      initial state is not final and whose transitions never lead to a final
      state runs forever: after any number of steps the next step succeeds
      and reports true. */
  lemma ConstructedNeverHalts(c: Config, n: nat)
    requires Valid(c)
    requires |c.input| >= 1 && 0 in c.symbols
    requires Closed(c.transitions, c.states, c.symbols)
    requires c.initial !in c.finals
    requires forall k :: k in c.transitions ==> c.transitions[k].next !in c.finals
    ensures Construct(c).Ok?
    ensures Run(Construct(c).value, n).Ok?
    ensures Step(Run(Construct(c).value, n).value).Ok? && Step(Run(Construct(c).value, n).value).value.1
  {
    ConstructedIsSound(c);
    RunAvoidsFinals(Construct(c).value, n);
  }
}

=== FILE: roundtrip.dfy ===
/** Encoding and decoding together: decoding the encoding of a machine number
    gives a table whose slots read back to that number, and such a table
    passes the machine's construction checks when there is one halting state. */
module RoundTrip {
  import opened Wrappers
  import opened Seqs
  import opened TuringMachines
  import opened Encoding
  import opened Decoding

  /** The slot that encodes a transition: its written symbol, its shift digit
      and the position of its next state in the states. */
  function SlotOf(a: Action, states: seq<State>): (s: Slot)
    requires a.write >= 0 && a.next in states
    ensures SlotOk(s, |states|)
    ensures ToAction(s, states) == Ok(a)
  {
    Slot(a.write, ShiftDigit(a.shift), IndexOf(states, a.next))
  }

  /** Over duplicate-free states, decoding a well-formed slot and encoding the
      transition again gives the slot back. */
  lemma SlotOfToAction(s: Slot, states: seq<State>)
    requires Distinct(states) && SlotOk(s, |states|)
    ensures ToAction(s, states).value.write >= 0
    ensures ToAction(s, states).value.next in states
    ensures SlotOf(ToAction(s, states).value, states) == s
  {
    IndexOfDistinct(states, s.state);
  }

  /** A table where every pair has a transition writing a non-negative symbol
      and moving to one of the states. */
  predicate Reencodable(t: Table, pairs: seq<(State, Symbol)>, states: seq<State>) {
    forall k :: 0 <= k < |pairs| ==> pairs[k] in t && t[pairs[k]].write >= 0 && t[pairs[k]].next in states
  }

  /** The slots of a table, pair by pair in slot order: slot k is well formed
      and decodes back to the transition of pair k. */
  function Reencode(t: Table, pairs: seq<(State, Symbol)>, states: seq<State>): (ds: seq<Slot>)
    requires Reencodable(t, pairs, states)
    ensures |ds| == |pairs|
    ensures forall k :: 0 <= k < |ds| ==> SlotOk(ds[k], |states|) && ToAction(ds[k], states) == Ok(t[pairs[k]])
  {
    seq(|pairs|, k requires 0 <= k < |pairs| => SlotOf(t[pairs[k]], states))
  }

  /** Decoding the encoding of any machine number succeeds over
      duplicate-free lists whose halting states are all states. */
  lemma EncodingDecodes(n: int, states: seq<State>, halting: seq<State>, symbols: seq<Symbol>)
    requires Distinct(states) && Distinct(halting)
    requires forall h :: h in halting ==> h in states
    ensures |halting| <= |states|
    ensures Decode(Encode(n, |states|, |halting|, |symbols|), states, halting, symbols).Ok?
  {
    var S, H, K := |states|, |halting|, |symbols|;
    PairCount(states, halting, symbols);
    EncodeSlotCount(n, S, H, K);
  }

  /** Encoding the decoded table slot by slot gives back the slots it was
      decoded from. */
  lemma DecodedTableReencodes(n: int, states: seq<State>, halting: seq<State>, symbols: seq<Symbol>)
    requires Distinct(states) && Distinct(halting) && Distinct(symbols)
    requires forall h :: h in halting ==> h in states
    ensures Decode(Encode(n, |states|, |halting|, |symbols|), states, halting, symbols).Ok?
    ensures
      var e := Encode(n, |states|, |halting|, |symbols|);
      var t := Decode(e, states, halting, symbols).value;
      var ps := Pairs(NonHalting(states, halting), symbols);
      && Reencodable(t, ps, states)
      && Reencode(t, ps, states) == e.slots
  {
    EncodingDecodes(n, states, halting, symbols);
    var e := Encode(n, |states|, |halting|, |symbols|);
    var t := Decode(e, states, halting, symbols).value;
    var ps := Pairs(NonHalting(states, halting), symbols);
    forall k | 0 <= k < |ps|
      ensures ps[k] in t && t[ps[k]].write >= 0 && t[ps[k]].next in states
      ensures SlotOf(t[ps[k]], states) == e.slots[k]
    {
      DecodedEntryReencodes(e, states, halting, symbols, k);
    }
    assert |ps| == |e.slots| by {
      PairCount(states, halting, symbols);
      EncodeSlotCount(n, |states|, |halting|, |symbols|);
    }
  }

  /** The transition decoded for pair k encodes back to slot k. */
  lemma DecodedEntryReencodes(e: Code, states: seq<State>, halting: seq<State>, symbols: seq<Symbol>, k: nat)
    requires Distinct(states) && Distinct(symbols)
    requires Decode(e, states, halting, symbols).Ok?
    requires k < |Pairs(NonHalting(states, halting), symbols)|
    ensures
      var t := Decode(e, states, halting, symbols).value;
      var p := Pairs(NonHalting(states, halting), symbols)[k];
      && p in t && t[p].write >= 0 && t[p].next in states
      && SlotOf(t[p], states) == e.slots[k]
  {
    DecodeSlotOrder(e, states, halting, symbols, k);
    SlotOfToAction(e.slots[k], states);
  }

  /** Decoding the encoding of machine number n, over duplicate-free lists
      whose halting states are all states, succeeds; encoding the decoded
      table slot by slot gives back the encoding's slots, and reading those
      as a mixed-radix number gives n modulo MaxMachines. */
  lemma DecodeEncode(n: int, states: seq<State>, halting: seq<State>, symbols: seq<Symbol>)
    requires Distinct(states) && Distinct(halting) && Distinct(symbols)
    requires forall h :: h in halting ==> h in states
    ensures |halting| <= |states|
    ensures
      var e := Encode(n, |states|, |halting|, |symbols|);
      var r := Decode(e, states, halting, symbols);
      var ps := Pairs(NonHalting(states, halting), symbols);
      && r.Ok?
      && Reencodable(r.value, ps, states)
      && Recombine(Reencode(r.value, ps, states), |states|, |symbols|)
         == n % MaxMachines(|states|, |halting|, |symbols|)
  {
    DecodedTableReencodes(n, states, halting, symbols);
    EncodingDecodes(n, states, halting, symbols);
    EncodeIndexSpace(n, |states|, |halting|, |symbols|);
  }

  /** With duplicate-free states containing the one halting state h and
      duplicate-free symbols, the table decoded from any machine number passes
      every construction check, given a blank, input and initial state that
      pass theirs. */
  lemma EncodedMachineIsValid(n: int, states: seq<State>, h: State, symbols: seq<Symbol>, blank: Symbol, input: seq<Symbol>, initial: State)
    requires Distinct(states) && h in states && Distinct(symbols)
    requires blank in symbols && (forall v :: v in input ==> v in symbols) && initial in states
    ensures Decode(Encode(n, |states|, 1, |symbols|), states, [h], symbols).Ok?
    ensures Construct(Config(states, symbols, blank, input, initial, [h],
                             Decode(Encode(n, |states|, 1, |symbols|), states, [h], symbols).value)).Ok?
  {
    EncodingDecodes(n, states, [h], symbols);
    var e := Encode(n, |states|, 1, |symbols|);
    var t := Decode(e, states, [h], symbols).value;
    var c := Config(states, symbols, blank, input, initial, [h], t);
    assert (|states| - 1) * |symbols| == |t| by {
      DecodedSize(e, states, [h], symbols);
    }
    assert forall q, a :: q in states && a in symbols && q !in [h] ==> (q, a) in t by {
      DecodedKeys(e, states, [h], symbols);
    }
    assert Valid(c);
  }

  /** Subtracting one state and subtracting two or more give different
      products with a positive number of symbols. */
  lemma CountsDiffer(S: int, H: int, K: int)
    requires H >= 2 && K >= 1
    ensures (S - 1) * K != (S - H) * K
  {
    assert (S - 1) * K - (S - H) * K == (H - 1) * K;
    MulAtLeast(H - 1, K);
  }

  /** With two or more halting states and at least one symbol, the table
      decoded from any machine number is refused by the count check: it has
      (|states| - |halting|) * |symbols| entries where the machine asks for
      (|states| - 1) * |symbols|. */
  lemma EncodedMachineNeedsOneHaltingState(n: int, states: seq<State>, halting: seq<State>, symbols: seq<Symbol>,
                                           blank: Symbol, input: seq<Symbol>, initial: State)
    requires Distinct(states) && Distinct(halting) && Distinct(symbols)
    requires forall h :: h in halting ==> h in states
    requires |halting| >= 2 && |symbols| >= 1
    requires blank in symbols && (forall v :: v in input ==> v in symbols) && initial in states
    ensures Decode(Encode(n, |states|, |halting|, |symbols|), states, halting, symbols).Ok?
    ensures Construct(Config(states, symbols, blank, input, initial, halting,
                             Decode(Encode(n, |states|, |halting|, |symbols|), states, halting, symbols).value))
            == Err(TransitionCountMismatch)
  {
    EncodingDecodes(n, states, halting, symbols);
    var e := Encode(n, |states|, |halting|, |symbols|);
    var t := Decode(e, states, halting, symbols).value;
    var c := Config(states, symbols, blank, input, initial, halting, t);
    var S, H, K := |states|, |halting|, |symbols|;
    assert (S - 1) * K != |t| by {
      DecodedSize(e, states, halting, symbols);
      CountsDiffer(S, H, K);
    }
    CountMismatchRefused(c);
  }

  /** The symbols 0, 1, ..., K - 1. */
  function Range(K: nat): (s: seq<Symbol>)
    ensures Distinct(s)
    ensures forall v :: v in s <==> 0 <= v < K
  {
    var r := seq(K, i => i);
    assert forall v :: 0 <= v < K ==> r[v] == v && v in r;
    assert forall v :: v in r ==> 0 <= v < K;
    r
  }

  /** Every transition of a table decoded from a machine number writes a
      symbol below K and moves to one of the states. */
  lemma EncodedTableIsClosed(n: int, states: seq<State>, h: State, K: nat)
    requires Distinct(states) && h in states && K > 0
    requires Decode(Encode(n, |states|, 1, K), states, [h], Range(K)).Ok?
    ensures Closed(Decode(Encode(n, |states|, 1, K), states, [h], Range(K)).value, states, Range(K))
  {
    var e := Encode(n, |states|, 1, K);
    var nh := NonHalting(states, [h]);
    var ps := Pairs(nh, Range(K));
    var t := Decode(e, states, [h], Range(K)).value;
    forall k | 0 <= k < |ps|
      ensures ps[k] in t && t[ps[k]].write in Range(K) && t[ps[k]].next in states
    {
      EncodedEntryIsClosed(n, states, h, K, k);
    }
    DecodeSlotsKeys(ps, e.slots, states);
    assert forall p :: p in t ==> p in ps;
  }

  /** The transition decoded from slot k writes a symbol below K and moves to
      one of the states. */
  lemma EncodedEntryIsClosed(n: int, states: seq<State>, h: State, K: nat, k: nat)
    requires Distinct(states) && h in states && K > 0
    requires Decode(Encode(n, |states|, 1, K), states, [h], Range(K)).Ok?
    requires k < |Pairs(NonHalting(states, [h]), Range(K))|
    ensures
      var t := Decode(Encode(n, |states|, 1, K), states, [h], Range(K)).value;
      var p := Pairs(NonHalting(states, [h]), Range(K))[k];
      p in t && t[p].write in Range(K) && t[p].next in states
  {
    var e := Encode(n, |states|, 1, K);
    var t := Decode(e, states, [h], Range(K)).value;
    var p := Pairs(NonHalting(states, [h]), Range(K))[k];
    assert Distinct(Range(K));
    DecodeSlotOrder(e, states, [h], Range(K), k);
    assert t[p].write == e.slots[k].symbol < K;
    assert Range(K)[t[p].write] == t[p].write;
  }

  /** A machine decoded from any machine number over the symbols 0..K-1, with
      one halting state and a non-empty input of symbols, never faults: any
      number of steps runs without a tape error or a missing transition. */
  lemma EncodedMachineNeverFaults(n: int, states: seq<State>, h: State, K: nat, input: seq<Symbol>, initial: State, steps: nat)
    requires Distinct(states) && h in states && K > 0
    requires |input| >= 1 && (forall v :: v in input ==> 0 <= v < K) && initial in states
    ensures Decode(Encode(n, |states|, 1, K), states, [h], Range(K)).Ok?
    ensures
      var t := Decode(Encode(n, |states|, 1, K), states, [h], Range(K)).value;
      var c := Config(states, Range(K), 0, input, initial, [h], t);
      && Construct(c).Ok?
      && Run(Construct(c).value, steps).Ok?
  {
    var symbols := Range(K);
    EncodedMachineIsValid(n, states, h, symbols, 0, input, initial);
    EncodedTableIsClosed(n, states, h, K);
    var t := Decode(Encode(n, |states|, 1, K), states, [h], symbols).value;
    var c := Config(states, symbols, 0, input, initial, [h], t);
    ConstructedIsSound(c);
    RunPreservesSound(Construct(c).value, steps);
  }
}

=== FILE: scenarios.dfy ===
/** Concrete instances: the machine the program builds when given no
    arguments, the one-state busy beaver, the size of small index spaces and
    configurations the checks refuse. */
module Scenarios {
  import opened Wrappers
  import opened Tapes
  import opened TuringMachines
  import opened Encoding
  import opened Decoding

  /** The transitions the machine uses when given none, except the one for
      (C, 1). */
  function DefaultTableWithoutC1(): Table {
    map[
      ("A", 0) := Action(1, R, "B"),
      ("B", 0) := Action(0, R, "C"),
      ("C", 0) := Action(1, L, "C"),
      ("A", 1) := Action(1, R, "HALT"),
      ("B", 1) := Action(1, R, "B")
    ]
  }

  /** The transitions the machine uses when given none. */
  function DefaultTable(): Table {
    DefaultTableWithoutC1()[("C", 1) := Action(1, L, "A")]
  }

  /** The configuration the machine uses when given no arguments. */
  function DefaultConfig(): Config {
    Config(["HALT", "A", "B", "C"], [0, 1], 0, [1], "A", ["HALT"], DefaultTable())
  }

  /** The default configuration passes every check. */
  lemma DefaultConfigIsValid()
    ensures Construct(DefaultConfig()).Ok?
  {
    var c := DefaultConfig();
    assert c.blank in c.symbols;
    assert forall v :: v in c.input ==> v in c.symbols;
    assert c.initial in c.states;
    assert forall f :: f in c.finals ==> f in c.states;
    assert |DefaultTable()| == 6;
    assert forall q, a :: q in c.states && a in c.symbols && q !in c.finals ==> (q, a) in c.transitions;
    assert Valid(c);
  }

  /** Without the transition for (C, 1) the default configuration fails the
      count check. */
  lemma DefaultWithoutC1IsRefused()
    ensures Construct(DefaultConfig().(transitions := DefaultTableWithoutC1())) == Err(TransitionCountMismatch)
  {
    var c := DefaultConfig().(transitions := DefaultTableWithoutC1());
    assert |c.transitions| == 5;
    assert forall f :: f in c.finals ==> f in c.states;
    CountMismatchRefused(c);
  }

  /** The default transitions with the one for (C, 1) swapped for one keyed
      by the final state. */
  function SwappedTable(): Table {
    DefaultTableWithoutC1()[("HALT", 1) := Action(1, L, "A")]
  }

  /** Swapping the transition for (C, 1) for one keyed by the final state keeps
      the count right, so it is the completeness check that refuses it. */
  lemma MissingPairIsRefused()
    ensures Construct(DefaultConfig().(transitions := SwappedTable())) == Err(MissingTransition)
  {
    var c := DefaultConfig().(transitions := SwappedTable());
    assert |SwappedTable()| == 6 by {
      assert |DefaultTableWithoutC1()| == 5;
      assert ("HALT", 1) !in DefaultTableWithoutC1();
    }
    assert ("C", 1) !in SwappedTable();
    assert "C" !in c.finals;
    MissingTransitionRefused(c, "C", 1);
  }

  /** The count check subtracts one state whatever the number of final states:
      with two final states and a complete table for the one other state, the
      machine is refused. */
  lemma TwoFinalStatesAreRefused()
    ensures
      var c := Config(["HALT", "STOP", "A"], [0, 1], 0, [0], "A", ["HALT", "STOP"],
                      map[("A", 0) := Action(1, R, "HALT"), ("A", 1) := Action(1, R, "STOP")]);
      Construct(c) == Err(TransitionCountMismatch)
  {
    var t := map[("A", 0) := Action(1, R, "HALT"), ("A", 1) := Action(1, R, "STOP")];
    var c := Config(["HALT", "STOP", "A"], [0, 1], 0, [0], "A", ["HALT", "STOP"], t);
    assert |t| == 2;
    assert forall f :: f in c.finals ==> f in c.states;
    CountMismatchRefused(c);
  }

  /** The one-state busy beaver "1-2/1-1-0/0-0-0" over the states HALT, A and
      the symbols 0, 1. */
  function BusyBeaverOne(): Code {
    Code(1, 2, [Slot(1, 1, 0), Slot(0, 0, 0)])
  }

  /** The table the one-state busy beaver stands for. */
  function BusyBeaverOneTable(): Table {
    map[("A", 0) := Action(1, R, "HALT"), ("A", 1) := Action(0, L, "HALT")]
  }

  /** Decoding it gives A a transition to HALT for both symbols: write 1 and
      move right on 0, write 0 and move left on 1. */
  lemma BusyBeaverOneDecodes()
    ensures Decode(BusyBeaverOne(), ["HALT", "A"], ["HALT"], [0, 1]) == Ok(BusyBeaverOneTable())
  {
    var states, symbols := ["HALT", "A"], [0, 1];
    assert NonHalting(states, ["HALT"]) == ["A"] by {
      assert NonHalting(states[1..], ["HALT"]) == ["A"];
    }
    var ps := Pairs(["A"], symbols);
    assert ps == [("A", 0), ("A", 1)] by {
      assert Pairs(["A"], symbols[1..]) == [("A", 1)];
    }
    assert DecodeSlots(ps[..1], BusyBeaverOne().slots, states) == Ok(map[("A", 0) := Action(1, R, "HALT")]) by {
      assert ps[..1][..0] == [];
    }
  }

  /** The one-state busy beaver's table over the states HALT, A, the symbols
      0, 1 and the input [0]. */
  function BusyBeaverOneConfig(): Config {
    Config(["HALT", "A"], [0, 1], 0, [0], "A", ["HALT"], BusyBeaverOneTable())
  }

  /** The machine that configuration builds. */
  function BusyBeaverOneMachine(): Machine {
    Machine(BusyBeaverOneConfig(), Tape([0], [], 0, 0, 0), "A", 0)
  }

  /** The machine after its one step: 1 written in cell 0, the head on cell
      1, the state HALT. */
  function BusyBeaverOneHalted(): Machine {
    Machine(BusyBeaverOneConfig(), Tape([1], [], 0, 0, 0), "HALT", 1)
  }

  /** The one-state busy beaver's configuration passes every check. */
  lemma BusyBeaverOneIsValid()
    ensures Construct(BusyBeaverOneConfig()) == Ok(BusyBeaverOneMachine())
  {
    var c := BusyBeaverOneConfig();
    assert |BusyBeaverOneTable()| == 2;
    assert c.blank in c.symbols;
    assert forall v :: v in c.input ==> v in c.symbols;
    assert c.initial in c.states;
    assert forall f :: f in c.finals ==> f in c.states;
    assert forall q, a :: q in c.states && a in c.symbols && q !in c.finals ==> (q, a) in c.transitions;
    assert Valid(c);
  }

  /** Its first step reads 0, writes 1, moves right, enters HALT and reports
      true. */
  lemma BusyBeaverOneFirstStep()
    ensures Step(BusyBeaverOneMachine()) == Ok((BusyBeaverOneHalted(), true))
  {
    assert "A" !in BusyBeaverOneConfig().finals;
    assert Read(BusyBeaverOneMachine().tape, 0) == Ok(0);
    assert BusyBeaverOneTable()[("A", 0)] == Action(1, R, "HALT");
    assert [0][0 := 1] == [1];
    assert Write(BusyBeaverOneMachine().tape, 0, 1) == Ok(Tape([1], [], 0, 0, 0));
  }

  /** The machine built from the one-state busy beaver on the input [0] takes
      one step, which reports true and enters HALT; the next step reports
      false and changes nothing. */
  lemma BusyBeaverOneHaltsAfterOneStep()
    ensures Construct(BusyBeaverOneConfig()) == Ok(BusyBeaverOneMachine())
    ensures Step(BusyBeaverOneMachine()) == Ok((BusyBeaverOneHalted(), true))
    ensures Step(BusyBeaverOneHalted()) == Ok((BusyBeaverOneHalted(), false))
  {
    BusyBeaverOneIsValid();
    BusyBeaverOneFirstStep();
    BusyBeaverOneHaltedStep();
  }

  /** A step of the halted machine reports false and changes nothing. */
  lemma BusyBeaverOneHaltedStep()
    ensures Step(BusyBeaverOneHalted()) == Ok((BusyBeaverOneHalted(), false))
  {
    assert "HALT" in BusyBeaverOneConfig().finals;
  }

  /** Once halted, every later step of the one-state busy beaver changes
      nothing. */
  lemma BusyBeaverOneStaysHalted(n: nat)
    ensures Run(BusyBeaverOneHalted(), n) == Ok(BusyBeaverOneHalted())
  {
    assert "HALT" in ["HALT"];
    HaltedIsFixedPoint(BusyBeaverOneHalted(), n);
  }

  /** The size of the index space for two symbols and one halting state is
      (4 * S) to the power 2 * (S - 1): 64 machines for two states and 20736
      for three. */
  lemma MaxMachinesTwoSymbols(S: nat)
    requires S >= 1
    ensures MaxMachines(S, 1, 2) == Pow(4 * S, 2 * (S - 1))
    ensures MaxMachines(2, 1, 2) == 64
    ensures MaxMachines(3, 1, 2) == 20736
  {
    assert Pow(8, 2) == 64;
    assert Pow(12, 4) == 20736;
  }

  /** A table whose every transition leads back to A. */
  function LoopingTable(): Table {
    map[("A", 0) := Action(1, R, "A"), ("A", 1) := Action(1, R, "A")]
  }

  /** The looping table over the states HALT, A and the symbols 0, 1. */
  function LoopingConfig(): Config {
    Config(["HALT", "A"], [0, 1], 0, [0], "A", ["HALT"], LoopingTable())
  }

  /** The machine the looping configuration builds. */
  function LoopingMachine(): Machine {
    Machine(LoopingConfig(), Tape([0], [], 0, 0, 0), "A", 0)
  }

  /** The looping configuration passes every check. */
  lemma LoopingConfigIsValid()
    ensures Construct(LoopingConfig()) == Ok(LoopingMachine())
  {
    var c := LoopingConfig();
    assert |LoopingTable()| == 2;
    assert c.blank in c.symbols;
    assert forall v :: v in c.input ==> v in c.symbols;
    assert c.initial in c.states;
    assert forall f :: f in c.finals ==> f in c.states;
    assert forall q, a :: q in c.states && a in c.symbols && q !in c.finals ==> (q, a) in c.transitions;
    assert Valid(c);
  }

  /** A machine whose every transition leads back to A never halts: every step
      of every run reports true. */
  lemma LoopingMachineNeverHalts(n: nat)
    ensures Construct(LoopingConfig()).Ok?
    ensures Run(Construct(LoopingConfig()).value, n).Ok?
    ensures Step(Run(Construct(LoopingConfig()).value, n).value).Ok?
    ensures Step(Run(Construct(LoopingConfig()).value, n).value).value.1
  {
    var c := LoopingConfig();
    assert Valid(c) by {
      LoopingConfigIsValid();
    }
    assert Closed(c.transitions, c.states, c.symbols) by {
      assert Closed(LoopingTable(), ["HALT", "A"], [0, 1]);
    }
    assert "A" !in ["HALT"];
    assert forall k :: k in c.transitions ==> c.transitions[k].next !in c.finals by {
      assert forall k :: k in LoopingTable() ==> LoopingTable()[k].next == "A";
    }
    ConstructedNeverHalts(c, n);
  }
}

=== FILE: seqs.dfy ===
/** Small facts about sequences used as Python lists: membership, duplicates
    and the first index of an element. */
module Seqs {

  /** No element occurs twice (a list that behaves like a set). */
  predicate Distinct<T(==)>(s: seq<T>) {
    forall i, j :: 0 <= i < j < |s| ==> s[i] != s[j]
  }

  /** The set of elements of a list. */
  function Elems<T(==)>(s: seq<T>): set<T> {
    set x | x in s
  }

  /** The head and tail of a concatenation whose first part is not empty. */
  lemma ConcatSplit<T>(a: seq<T>, b: seq<T>)
    requires |a| > 0
    ensures (a + b)[0] == a[0] && (a + b)[1..] == a[1..] + b
  {
  }

  /** Index |a| + k of a + b is index k of b. */
  lemma IndexAfter<T>(a: seq<T>, b: seq<T>, k: nat)
    requires k < |b|
    ensures |a| + k < |a + b| && (a + b)[|a| + k] == b[k]
  {
  }

  /** A duplicate-free list has as many elements as its element set. */
  lemma {:induction false} DistinctCard<T>(s: seq<T>)
    requires Distinct(s)
    ensures |Elems(s)| == |s|
  {
    if |s| > 0 {
      assert Distinct(s[1..]) by {
        forall i, j | 0 <= i < j < |s[1..]|
          ensures s[1..][i] != s[1..][j]
        {
          assert s[1..][i] == s[i + 1] && s[1..][j] == s[j + 1];
        }
      }
      DistinctCard(s[1..]);
      assert Elems(s) == {s[0]} + Elems(s[1..]) by {
        forall x ensures x in Elems(s) <==> x in {s[0]} + Elems(s[1..]) {
          if x in s && x != s[0] {
            var i :| 0 <= i < |s| && s[i] == x;
            assert s[1..][i - 1] == x;
          }
        }
      }
      assert s[0] !in Elems(s[1..]);
    }
  }

  /** Concatenating two duplicate-free lists with no common element gives a
      duplicate-free list. */
  lemma DistinctConcat<T>(a: seq<T>, b: seq<T>)
    requires Distinct(a) && Distinct(b)
    requires forall x :: x in a ==> x !in b
    ensures Distinct(a + b)
  {
    forall i, j | 0 <= i < j < |a + b|
      ensures (a + b)[i] != (a + b)[j]
    {
      if j >= |a| && i < |a| {
        assert (a + b)[i] in a && (a + b)[j] == b[j - |a|];
      }
    }
  }

  /** The first position of `x` in `s` (Python's `list.index`). */
  function IndexOf<T(==)>(s: seq<T>, x: T): (i: nat)
    requires x in s
    ensures i < |s| && s[i] == x
    ensures forall j :: 0 <= j < i ==> s[j] != x
  {
    if s[0] == x then 0 else 1 + IndexOf(s[1..], x)
  }

  /** In a duplicate-free list the first position of an element is its only one. */
  lemma IndexOfDistinct<T>(s: seq<T>, i: int)
    requires Distinct(s) && 0 <= i < |s|
    ensures IndexOf(s, s[i]) == i
  {
  }
}

=== FILE: tape.dfy ===
/** The two-sided tape: a `positive` half holding cells 0, 1, 2, ... and a
    `negative` half holding cells -1, -2, ..., with the bounds `minIndex` and
    `maxIndex` of the cells that are treated as written. */
module Tapes {
  import opened Wrappers

  /** The IndexError the program raises when a list index falls past the end
      of one of the two halves. */
  datatype TapeError = IndexError

  /** Cell k >= 0 lives at positive[k], cell k < 0 at negative[-k-1]; every
      cell outside [minIndex, maxIndex] reads as `blank`. */
  datatype Tape = Tape(positive: seq<int>, negative: seq<int>, blank: int, maxIndex: int, minIndex: int)

  /** The shape every tape must keep for reads and adjacent writes to stay
      inside the two halves. */
  predicate WellFormed(t: Tape) {
    && t.minIndex <= 0 <= t.maxIndex
    && |t.positive| == t.maxIndex + 1
    && |t.negative| == -t.minIndex
  }

  /** The weaker shape every tape built from a non-empty input keeps: the
      bounds lie on either side of cell 0 and each half holds at least the
      cells up to its bound. Longer halves hold input cells past the bound,
      which stay invisible until a write moves the bound. */
  predicate Covers(t: Tape) {
    && t.minIndex <= 0 <= t.maxIndex
    && |t.positive| > t.maxIndex
    && |t.negative| >= -t.minIndex
  }

  /** Cell k lies between the bounds. */
  predicate InRange(t: Tape, k: int) {
    t.minIndex <= k <= t.maxIndex
  }

  /** Cell k is at most one past a bound, as a head that moves one cell per
      step always is. */
  predicate Adjacent(t: Tape, k: int) {
    t.minIndex - 1 <= k <= t.maxIndex + 1
  }

  /** A fresh tape over `input`. Both bounds start at 0 whatever the length of
      `input`, so only cell 0 of the input is ever visible, and the tape is
      well formed exactly for a one-cell input. */
  function NewTape(input: seq<int>, blank: int): (t: Tape)
    ensures WellFormed(t) <==> |input| == 1
    ensures Covers(t) <==> |input| >= 1
    ensures Read(t, 0) == if |input| == 0 then Err(IndexError) else Ok(input[0])
    ensures forall k :: k != 0 ==> Read(t, k) == Ok(blank)
  {
    Tape(input, [], blank, 0, 0)
  }

  /** Reading cell k: blank outside the bounds, otherwise the stored value, or
      IndexError when the half holding k is too short. */
  function Read(t: Tape, k: int): (r: Result<int, TapeError>)
    ensures !InRange(t, k) ==> r == Ok(t.blank)
    ensures WellFormed(t) ==> r.Ok?
    ensures Covers(t) ==> r.Ok?
    ensures r.Ok? ==> r.value == t.blank || r.value in t.positive || r.value in t.negative
  {
    if k > t.maxIndex || k < t.minIndex then Ok(t.blank)
    else if k >= 0 then
      if k < |t.positive| then Ok(t.positive[k]) else Err(IndexError)
    else
      if -k - 1 < |t.negative| then Ok(t.negative[-k - 1]) else Err(IndexError)
  }

  /** Writing `v` into cell k. A cell past a bound moves that bound to k and
      appends `v` to the half, which puts `v` at k only when k is adjacent to
      the bound; a cell inside the bounds is overwritten in place. */
  function Write(t: Tape, k: int, v: int): (r: Result<Tape, TapeError>)
    ensures r.Ok? ==> r.value.blank == t.blank
    ensures r.Ok? ==> r.value.minIndex <= t.minIndex && t.maxIndex <= r.value.maxIndex
    ensures WellFormed(t) && Adjacent(t, k) ==> r.Ok? && WellFormed(r.value) && InRange(r.value, k)
    ensures Covers(t) && Adjacent(t, k) ==> r.Ok? && Covers(r.value) && InRange(r.value, k)
    ensures t.minIndex <= 0 <= t.maxIndex ==> (r.Err? <==> Read(t, k).Err?)
  {
    if k >= 0 then
      if k > t.maxIndex then Ok(t.(maxIndex := k, positive := t.positive + [v]))
      else if k < |t.positive| then Ok(t.(positive := t.positive[k := v]))
      else Err(IndexError)
    else
      if k < t.minIndex then Ok(t.(minIndex := k, negative := t.negative + [v]))
      else if -k - 1 < |t.negative| then Ok(t.(negative := t.negative[-k - 1 := v]))
      else Err(IndexError)
  }

  /** A write stores nothing but the written value: every cell of either half
      afterwards holds `v` or a value the half held before. */
  lemma WriteStoresOnly(t: Tape, k: int, v: int)
    requires Write(t, k, v).Ok?
    ensures forall i :: 0 <= i < |Write(t, k, v).value.positive| ==>
              Write(t, k, v).value.positive[i] == v || Write(t, k, v).value.positive[i] in t.positive
    ensures forall i :: 0 <= i < |Write(t, k, v).value.negative| ==>
              Write(t, k, v).value.negative[i] == v || Write(t, k, v).value.negative[i] in t.negative
  {
    var t' := Write(t, k, v).value;
    if k >= 0 && k <= t.maxIndex {
      assert forall i :: 0 <= i < |t'.positive| && i != k ==> t'.positive[i] == t.positive[i];
    } else if k < 0 && k >= t.minIndex {
      assert forall i :: 0 <= i < |t'.negative| && i != -k - 1 ==> t'.negative[i] == t.negative[i];
    }
  }

  /** A tape over an empty input raises on a write to cell 0, as it does on
      the read: the cell is inside the bounds but the half holds nothing. */
  lemma EmptyInputWriteFails(blank: int, v: int)
    ensures Write(NewTape([], blank), 0, v) == Err(IndexError)
    ensures Read(NewTape([], blank), 0) == Err(IndexError)
  {
  }

  /** The value stored for an in-range cell of a well-formed tape. */
  function Stored(t: Tape, k: int): int
    requires WellFormed(t) && InRange(t, k)
  {
    if k >= 0 then t.positive[k] else t.negative[-k - 1]
  }

  /** The conceptual tape: a finite map from the written cells to their
      symbols, every other cell being blank. */
  function View(t: Tape): (m: map<int, int>)
    requires WellFormed(t)
    ensures forall k :: Read(t, k) == Ok(if k in m then m[k] else t.blank)
  {
    map k | t.minIndex <= k <= t.maxIndex :: Stored(t, k)
  }

  /** Writing a cell adjacent to the written range updates exactly that cell
      of the conceptual tape: it reads back the written value, every other
      cell reads as before, and the tape stays well formed. */
  lemma {:induction false} WriteThenRead(t: Tape, k: int, v: int)
    requires WellFormed(t) && Adjacent(t, k)
    ensures Write(t, k, v).Ok?
    ensures WellFormed(Write(t, k, v).value)
    ensures View(Write(t, k, v).value) == View(t)[k := v]
    ensures Read(Write(t, k, v).value, k) == Ok(v)
    ensures forall j :: j != k ==> Read(Write(t, k, v).value, j) == Read(t, j)
  {
    var t' := Write(t, k, v).value;
    var m, m' := View(t), View(t');
    forall j ensures j in m' <==> j in m[k := v] {
    }
    forall j | j in m'
      ensures m'[j] == m[k := v][j]
    {
      if j != k {
        assert InRange(t, j);
        if j >= 0 {
          assert t'.positive[j] == t.positive[j];
        } else {
          assert t'.negative[-j - 1] == t.negative[-j - 1];
        }
      }
    }
    assert m' == m[k := v];
    assert Read(t', k) == Ok(m'[k]);
    forall j | j != k
      ensures Read(t', j) == Read(t, j)
    {
      assert Read(t', j) == Ok(if j in m' then m'[j] else t'.blank);
      assert Read(t, j) == Ok(if j in m then m[j] else t.blank);
    }
  }

  /** With more than one input cell, cell 1 reads as blank although the input
      gave it a value, and a write to cell 1 appends past the input instead of
      landing on cell 1: cell 1 then reads back the input's second value. */
  lemma LongInputWriteLandsElsewhere(input: seq<int>, blank: int, v: int)
    requires |input| >= 2
    ensures Read(NewTape(input, blank), 1) == Ok(blank)
    ensures Write(NewTape(input, blank), 1, v).Ok?
    ensures Read(Write(NewTape(input, blank), 1, v).value, 1) == Ok(input[1])
  {
  }

  /** A write two cells past the upper bound of a well-formed tape succeeds,
      but the written cell can no longer be read: reading it raises IndexError. */
  lemma FarWriteIsUnreadable(t: Tape, v: int)
    requires WellFormed(t)
    ensures Write(t, t.maxIndex + 2, v).Ok?
    ensures Read(Write(t, t.maxIndex + 2, v).value, t.maxIndex + 2) == Err(IndexError)
  {
  }
}

=== FILE: wrappers.dfy ===
/** Failure-carrying results: the model's stand-in for the exceptions the
    program raises. */
module Wrappers {

  /** Either the computed value or the error that the program would raise. */
  datatype Result<+T, +E> = Ok(value: T) | Err(error: E)
}
